=== FILE: README.md ===
# Real-estate site core, modelled in Dafny

This project models the pure decisions inside a React/Supabase real-estate
site. Each Dafny module follows one part of the program:

- `ImageReorder` is the admin image manager. It builds the initial
  `display_order` ordering of a listing's images. `MoveImage` swaps an
  image with a neighbour. `SetPrimary` moves an image to the cover
  position. Both end by renumbering the whole list. `StableSort` models the
  runtime's stable `Array.prototype.sort` for any integer key, and proves
  that the stable ordering is unique.
- `PropertyFilters` is the catalog's filter state. It covers the
  single-field update, the price-range update, the `hasActiveFilters`
  predicate, the reset, and the deduplicated, non-empty, sorted list of
  locations.
- `FormatCurrency` is the currency abbreviation (`formatCurrency`,
  `formatCurrencyShort`) over integers. It includes decoders that read the
  number back, so a round trip and an error bound can be stated.
- `PropertyForm` is the admin form: the field schema, the image and user
  guards, and the two rows the form writes.
- `AdminNewProperty` is the stand-alone "new listing" page. It covers the
  admin check, the blank-field check, trimming, empty-to-default
  conversion, and render gating.
- `AdminPage` is the admin route's redirect and render decision.
- `Listings` is the read side:
  - the catalog cards;
  - the detail carousel and type badge;
  - the admin list's primary-image thumbnail.

  Lemmas tie this side to what the image manager and the form write.
- `Text` holds the string helpers the code relies on:
  - decimal rendering and parsing;
  - JavaScript's `trim` whitespace set;
  - code-unit lexicographic order.
- `Wrappers` defines `Option` and `Result`.

Callbacks to the store (`onReorder`, `onFiltersChange`, the mutation) are
modelled as return values: the function returns the value the callback
would be given. An early return that calls nothing is `None` or an error
variant.

Two behaviours of the code are worth knowing; the model follows the code in both:

- `formatCurrency` gives "R$ 1,2 milhões" for 1 200 000, while the example in
  its own doc comment (`src/lib/formatCurrency.ts:3`) reads "R$ 1,2 milhão".
  `FormatCurrency.Format` states the singular suffix only for exactly
  ±1 000 000.
- The filter state is initialised once from `minPrice`/`maxPrice` and is
  not reset when those bounds later change, so an untouched state compared
  against new bounds reports an active filter
  (`PropertyFilters.StaleBoundsLookActive`).

## Model

| member | source | states |
|---|---|---|
| StableSort.Sort | src/components/admin/ImageReorder.tsx:25 | the result is sorted by the key, is a permutation of the input, and keeps the input order of elements with equal keys |
| StableSort.StableSortUnique | src/components/admin/ImageReorder.tsx:25 | two key-sorted sequences that agree on the subsequence of every key are equal, so the stable ordering is unique |
| StableSort.SortIsTheStableSort | src/components/admin/ImageReorder.tsx:25 | any stable ordering of the input is exactly the one `Sort` computes |
| StableSort.SortSortedIsIdentity | src/components/admin/ImageReorder.tsx:25 | sorting a list already in key order leaves it unchanged |
| StableSort.Insert | src/components/admin/ImageReorder.tsx:25 | inserting into a sorted list keeps it sorted and adds exactly that element |
| StableSort.InsertWithKey | src/components/admin/ImageReorder.tsx:25 | insertion places the new element before the existing elements with the same key |
| StableSort.SortWithKey | src/components/admin/ImageReorder.tsx:25 | one insertion step keeps every key's subsequence in input order |
| StableSort.SortedHeadBelow | src/components/admin/ImageReorder.tsx:25 | the head of a sorted list has a key no greater than any key present |
| StableSort.TailsAgree | src/components/admin/ImageReorder.tsx:25 | two lists with the same head and the same per-key subsequences still agree after the head is removed |
| StableSort.ProjectSortPermutes | src/pages/PropertyDetail.tsx:51-53 | mapping the sorted list to any field gives a permutation of that field over the input |
| StableSort.ProjectInsert | src/pages/PropertyDetail.tsx:51-53 | a mapped insertion adds exactly the mapped element |
| ImageReorder.OrderKey | src/components/admin/ImageReorder.tsx:25 | the sort key `display_order || 0`: the stored order, or 0 when it is missing |
| ImageReorder.Normalized | src/components/admin/ImageReorder.tsx:37-41 | the invariant both operations establish; in a list that meets it, every image's sort key is its position |
| ImageReorder.InitialOrder | src/components/admin/ImageReorder.tsx:23-27 | the manager's starting list is the stable ordering of the images by `display_order`, with a missing order counting as 0 |
| ImageReorder.InitialOrderOfNormalized | src/components/admin/ImageReorder.tsx:25 | a list the manager wrote is read back in the same order |
| ImageReorder.Renumber | src/components/admin/ImageReorder.tsx:37-41 | each image's order becomes its position, only position 0 is primary, and every image's id and URL stay where they were |
| ImageReorder.MoveImage | src/components/admin/ImageReorder.tsx:29-45 | nothing happens exactly for "up" at 0 and "down" at the last index; otherwise the positions `index` and its neighbour exchange images, all other positions keep theirs, the list is renumbered, and the images are a permutation of the old ones |
| ImageReorder.Swap | src/components/admin/ImageReorder.tsx:33-34 | the two positions exchange elements and the rest stay |
| ImageReorder.ProjectSwap | src/components/admin/ImageReorder.tsx:33-34 | a swap permutes the ids and URLs |
| ImageReorder.FindIndex | src/components/admin/ImageReorder.tsx:48 | the first position with the id, or -1 exactly when no image has it |
| ImageReorder.Promote | src/components/admin/ImageReorder.tsx:52-54 | the chosen image comes first and the others keep their relative order |
| ImageReorder.PromoteAssets | src/components/admin/ImageReorder.tsx:52-54 | promotion permutes the ids and URLs |
| ImageReorder.SetPrimary | src/components/admin/ImageReorder.tsx:47-66 | nothing happens exactly when the id is absent or already first; otherwise that image comes first, the others keep their relative order, the list is renumbered, and the images are a permutation of the old ones |
| ImageReorder.NormalizedShape | src/components/admin/ImageReorder.tsx:37-41 | after a rewrite, the orders are exactly 0..n-1 and the set of primary positions is {0} |
| ImageReorder.RenumberNormalized | src/components/admin/ImageReorder.tsx:57-61 | renumbering a renumbered list changes nothing |
| ImageReorder.RenumberByAssets | src/components/admin/ImageReorder.tsx:57-61 | the rewrite depends only on which image sits at each position |
| ImageReorder.MoveUpThenDown | src/components/admin/ImageReorder.tsx:29-45 | moving an image up and then back down restores the renumbered list, and restores a renumbered list exactly |
| ImageReorder.MoveDownThenUp | src/components/admin/ImageReorder.tsx:29-45 | moving down and then back up restores the renumbered list |
| ImageReorder.SetPrimaryIdempotent | src/components/admin/ImageReorder.tsx:48-49 | promoting the same image twice does nothing the second time |
| PropertyFilters.InitialFilters | src/components/PropertyFilters.tsx:42-48 | no filter is active in the initial state |
| PropertyFilters.HandleFilterChange | src/components/PropertyFilters.tsx:52-56 | the named field takes the value, every other field and the price range are unchanged, and the state passed on is the state stored |
| PropertyFilters.HandlePriceChange | src/components/PropertyFilters.tsx:58-62 | the price range becomes the first two slider values, the text fields are unchanged, and the state passed on is the state stored |
| PropertyFilters.HasActiveFilters | src/components/PropertyFilters.tsx:64-71 | a filter is active exactly when the record differs from the one with empty text fields and the full price range |
| PropertyFilters.ClearFilters | src/components/PropertyFilters.tsx:73-83 | after a reset no filter is active, and the state passed on is the state stored |
| PropertyFilters.InactiveIffCleared | src/components/PropertyFilters.tsx:64-83 | no filter is active if and only if the state equals the reset state |
| PropertyFilters.InitialIsCleared | src/components/PropertyFilters.tsx:42-48 | the initial state equals the reset state |
| PropertyFilters.ChangeActivates | src/components/PropertyFilters.tsx:52-71 | setting any text field to a non-empty value makes a filter active |
| PropertyFilters.ChangeLastWins | src/components/PropertyFilters.tsx:52-56 | two changes of the same field leave only the second |
| PropertyFilters.ChangeToSameValue | src/components/PropertyFilters.tsx:52-56 | setting a field to its current value leaves the state unchanged |
| PropertyFilters.StaleBoundsLookActive | src/components/PropertyFilters.tsx:42-48 | the initial state shows as active once the bounds differ from those it was created with |
| PropertyFilters.Dedup | src/components/PropertyFilters.tsx:86 | `new Set` keeps each value once and loses none |
| PropertyFilters.NonEmpty | src/components/PropertyFilters.tsx:86 | `filter(Boolean)` removes exactly the empty strings |
| PropertyFilters.InsertSorted | src/components/PropertyFilters.tsx:86 | inserting a new string keeps the list strictly ascending |
| PropertyFilters.SortStrings | src/components/PropertyFilters.tsx:86 | sorting distinct strings gives a strictly ascending list with the same elements |
| PropertyFilters.UniqueLocations | src/components/PropertyFilters.tsx:85-88 | the list is strictly ascending with no duplicates and no empty string, and holds exactly the non-empty input locations |
| PropertyFilters.StrictlySortedDistinct | src/components/PropertyFilters.tsx:86 | a strictly ascending list has no duplicates |
| PropertyFilters.StrictlySortedUnique | src/components/PropertyFilters.tsx:86 | two strictly ascending lists with the same elements are equal |
| PropertyFilters.UniqueLocationsDependOnSetOnly | src/components/PropertyFilters.tsx:85-88 | the location list depends only on the set of input locations, not on their order or repetitions |
| Text.NatToString | src/lib/formatCurrency.ts:14 | a non-empty digit string with a leading zero only for 0 |
| Text.IntToString | src/lib/formatCurrency.ts:55 | a minus sign exactly for negative numbers, then digits with no leading zero except for 0 itself |
| Text.DigitsValueOfNatToString | src/lib/formatCurrency.ts:14 | the digits read back give the number |
| Text.NatToStringRoundTrip | src/lib/formatCurrency.ts:14 | parsing the rendering of a natural number gives it back |
| Text.IntToStringRoundTrip | src/lib/formatCurrency.ts:55 | parsing the rendering of an integer gives it back |
| Text.Less | src/components/PropertyFilters.tsx:86 | the default `sort()` order: first differing character smaller, or a proper prefix; a string never sorts before an equal one |
| Text.LessAsymmetric | src/components/PropertyFilters.tsx:86 | two strings are never each before the other |
| Text.LessIrreflexive | src/components/PropertyFilters.tsx:86 | no string sorts before itself |
| Text.LessTransitive | src/components/PropertyFilters.tsx:86 | the default sort order is transitive |
| Text.LessTotal | src/components/PropertyFilters.tsx:86 | any two different strings are ordered one way or the other |
| Text.IsWhitespace | src/pages/AdminNewProperty.jsx:80 | the characters `trim` removes: ECMAScript's WhiteSpace and LineTerminator sets |
| Text.LeadingSpace | src/pages/AdminNewProperty.jsx:80 | the length of the leading whitespace run |
| Text.TrailingSpace | src/pages/AdminNewProperty.jsx:80 | the length of the trailing whitespace run |
| Text.Trim | src/pages/AdminNewProperty.jsx:80-87 | the result is empty exactly for a blank input; otherwise it is a slice of the input with only whitespace cut off either end, and it neither starts nor ends with whitespace |
| Text.TrimBlank | src/pages/AdminNewProperty.jsx:80 | the two whitespace runs cover the whole string exactly when it is blank |
| Text.TrimEnds | src/pages/AdminNewProperty.jsx:86-87 | what lies between the two whitespace runs starts and ends with a non-whitespace character |
| Text.TrimIdempotent | src/pages/AdminNewProperty.jsx:86-87 | trimming twice is trimming once |
| FormatCurrency.RoundedTenths | src/lib/formatCurrency.ts:15 | `toFixed(1)` on the exact quotient: the nearest tenth, with halves rounded away from zero |
| FormatCurrency.Numeral | src/lib/formatCurrency.ts:11-15 | an exact multiple of the unit shows the plain quotient; otherwise one fractional digit follows the only comma, and a sign is present exactly for negative values |
| FormatCurrency.Format | src/lib/formatCurrency.ts:5-29 | "R$ 0" for 0; " milhão" or " milhões" from 1 000 000 up, with " milhão" exactly for ±1 000 000; " mil" for the thousands; below 1 000 the plain integer |
| FormatCurrency.FormatShort | src/lib/formatCurrency.ts:34-56 | "R$ 0" for 0; "M" exactly from 1 000 000 up; "k" exactly for the thousands; below 1 000 the plain integer |
| FormatCurrency.Cat3 | src/lib/formatCurrency.ts:16 | the label ends with its suffix and keeps the "R$ " prefix |
| FormatCurrency.ParseUnsignedNat | src/lib/formatCurrency.ts:14 | reading back a whole quotient gives ten times it in tenths |
| FormatCurrency.ParseTenthsInt | src/lib/formatCurrency.ts:14 | reading back a signed whole quotient gives ten times it in tenths |
| FormatCurrency.ParseTenthsFraction | src/lib/formatCurrency.ts:15 | reading back "n,d" gives 10n+d tenths, negated after a minus sign |
| FormatCurrency.ParseNumeral | src/lib/formatCurrency.ts:13-15 | the numeric part reads back as the rounded number of tenths |
| FormatCurrency.IntBodyParses | src/lib/formatCurrency.ts:55 | the plain rendering reads back as the integer |
| FormatCurrency.FormatParses | src/lib/formatCurrency.ts:5-29 | reading a label back gives the value rounded to a tenth of its tier's unit |
| FormatCurrency.FormatShortParses | src/lib/formatCurrency.ts:34-56 | the same for the short labels |
| FormatCurrency.RoundingError | src/lib/formatCurrency.ts:15 | rounding to tenths is off by at most half a tenth, and is exact on whole tenths |
| FormatCurrency.MultipleShown | src/lib/formatCurrency.ts:13-14 | an exact multiple is shown without loss |
| FormatCurrency.ShownWithinHalfTenth | src/lib/formatCurrency.ts:10-26 | the value a label shows differs from the input by at most half a tenth of the tier's unit |
| FormatCurrency.ShownExactOnWholeTenths | src/lib/formatCurrency.ts:10-26 | a value that is a whole number of tenths of its unit is shown exactly |
| FormatCurrency.FormatRoundTrip | src/lib/formatCurrency.ts:5-56 | for such values both labels read back as the value itself |
| FormatCurrency.NegatedLabel | src/lib/formatCurrency.ts:16 | a negative numeric part puts a minus after "R$ " |
| FormatCurrency.NegatedNumeral | src/lib/formatCurrency.ts:11-15 | the numeric part of -v is "-" followed by that of v |
| FormatCurrency.NegatedMillions | src/lib/formatCurrency.ts:8-17 | in the millions tier, -v shows as v with a minus sign and the same suffix |
| FormatCurrency.NegatedThousands | src/lib/formatCurrency.ts:19-26 | in the thousands tier, -v shows as v with a minus sign and the same suffix |
| FormatCurrency.NegatedSmall | src/lib/formatCurrency.ts:55 | below 1 000, -v shows as v with a minus sign |
| FormatCurrency.NegationAddsSign | src/lib/formatCurrency.ts:8-10 | the tier is chosen by the absolute value: both labels of -v are those of v with a minus after "R$ " |
| PropertyForm.ParseType | src/components/admin/PropertyForm.tsx:17 | a type string is accepted exactly when it names one of the five types |
| PropertyForm.Check | src/components/admin/PropertyForm.tsx:14-24 | one field is reported exactly when its rule fails |
| PropertyForm.TextIssues | src/components/admin/PropertyForm.tsx:15-18 | title and location are reported exactly when shorter than 3, and the type exactly when unknown |
| PropertyForm.NumberIssues | src/components/admin/PropertyForm.tsx:19-23 | price and area are reported exactly when missing or not positive; the counts exactly when missing, fractional or negative |
| PropertyForm.Issues | src/components/admin/PropertyForm.tsx:14-24 | each field is reported if and only if its rule fails |
| PropertyForm.Validate | src/components/admin/PropertyForm.tsx:14-24 | parsing fails exactly when some field fails, with the list of failing fields; a success is well formed and carries the input back |
| PropertyForm.ValidateEmbed | src/components/admin/PropertyForm.tsx:14-24 | every well-formed record passes validation unchanged |
| PropertyForm.StoredDescription | src/components/admin/PropertyForm.tsx:83 | a missing or empty description is stored as null, any other is stored as is |
| PropertyForm.Submit | src/components/admin/PropertyForm.tsx:54-106 | checks run in order: schema, then image, then user. Rows are written only when all pass. The property row carries the validated fields and the user id, and a non-empty description as typed. The image row is primary with order 0 |
| AdminNewProperty.InitialForm | src/pages/AdminNewProperty.jsx:21-29 | every text field starts as the empty string, so an untouched price or area is sent as null and an untouched count as 0; the type starts as "apartamento" and the listing is not featured |
| AdminNewProperty.OrNull | src/pages/AdminNewProperty.jsx:88 | an empty input becomes null, any other becomes its number |
| AdminNewProperty.OrZero | src/pages/AdminNewProperty.jsx:89-91 | an empty input becomes 0, any other becomes its number |
| AdminNewProperty.HandleSubmit | src/pages/AdminNewProperty.jsx:73-99 | a non-admin (including unknown) gets the admin message first. An admin with a blank title or location gets the fill-in message. A mutation happens exactly otherwise; its title and location are the trimmed inputs and have no surrounding whitespace. Empty price and area become null. Empty counts become 0. Type and featured flag pass through |
| AdminNewProperty.AdminSubmit | src/pages/AdminNewProperty.jsx:80-98 | after the admin check: the fill-in message exactly for a blank title or location, otherwise the normalised payload |
| AdminNewProperty.Render | src/pages/AdminNewProperty.jsx:101-102 | unknown shows the loading message, and only a confirmed admin sees the form |
| AdminNewProperty.MutationOnlyFromForm | src/pages/AdminNewProperty.jsx:76-79 | a submit that reaches the store implies the form was being shown |
| AdminNewProperty.EmptyFormAsksForFields | src/pages/AdminNewProperty.jsx:80-83 | an admin submitting the untouched form is asked for title and location |
| AdminNewProperty.TrimmedResubmitSame | src/pages/AdminNewProperty.jsx:86-87 | pre-trimming title and location does not change the result of a submit, whether it is a payload or the fill-in message |
| AdminPage.Redirect | src/pages/Admin.tsx:13-19 | no redirect while loading; "/auth" without a user; "/" for a user who is not a confirmed admin; none exactly when loading or a confirmed admin is signed in |
| AdminPage.Show | src/pages/Admin.tsx:26-36 | the spinner exactly while loading; the panel exactly when loaded with a user and a confirmed admin |
| AdminPage.RedirectAgreesWithView | src/pages/Admin.tsx:13-36 | the panel shows exactly when loaded and not redirecting; an empty page always comes with a redirect |
| AdminPage.NoUserGoesToAuth | src/pages/Admin.tsx:14-17 | without a user the target is "/auth", whatever the admin flag |
| Listings.SortedImages | src/pages/PropertyDetail.tsx:51-53 | the URLs of the stable ordering by `display_order` (missing counts as 0), one per image, a permutation of the images' URLs |
| Listings.TypeLabel | src/pages/PropertyDetail.tsx:55-61 | the mapped name for the five known types, the raw type otherwise |
| Listings.LabelChangesOnlyKnownTypes | src/pages/Properties.tsx:30-36 | the label differs from the raw type exactly for the five known types |
| Listings.LabelOfStoredType | src/pages/PropertyDetail.tsx:104 | a type written by the admin form is shown by its mapped name |
| Listings.Cards | src/pages/Properties.tsx:58-78 | one card per property, in query order, each with its property's id, title, location, bedrooms, bathrooms, parking and area passed through, its type label, and its images' URLs in stable `display_order` order |
| Listings.PrimaryImage | src/components/admin/PropertyList.tsx:63 | the URL of the first image flagged primary, or nothing exactly when none is flagged |
| Listings.Thumbnail | src/components/admin/PropertyList.tsx:63-67 | a thumbnail exactly when the first flagged image has a non-empty URL, and then it is that URL |
| Listings.Rows | src/components/admin/PropertyList.tsx:62-93 | one row per property, in query order; the row shows a thumbnail exactly when the first flagged image's URL is non-empty, and then it is that URL |
| Listings.SortedImagesOfSorted | src/pages/Properties.tsx:59-61 | a list already in key order is shown as stored |
| Listings.NormalizedIsSorted | src/components/admin/ImageReorder.tsx:37-41 | a list the image manager wrote is in key order |
| Listings.ShownInManagerOrder | src/pages/PropertyDetail.tsx:51-53 | the carousel shows a list the manager wrote in the manager's order |
| Listings.PrimaryOfNormalized | src/components/admin/PropertyList.tsx:63 | the thumbnail of a list the manager wrote is its first image |
| Listings.ShownAfterMove | src/components/admin/ImageReorder.tsx:29-45 | after a move from any list, including stored lists with missing or gapped orders, the carousel shows the list's two URLs exchanged and every other URL in place |
| Listings.ShownAfterSetPrimary | src/components/admin/ImageReorder.tsx:47-66 | after a promotion, the admin thumbnail and the first slide are the promoted image |
| Listings.NewListingShowsItsImage | src/components/admin/PropertyForm.tsx:98-106 | a new listing's image row already satisfies the manager's invariant and is both the thumbnail and the only slide |

## Left out

- Store I/O is not modelled. This covers Supabase queries, inserts, uploads, public URLs, deletes and auth calls. Their results become parameters: `hasImage`, `userId` and `imageUrl` for the form, and `loading`, `user` and `isAdmin` for the admin route.
- Store failures after validation are not modelled: upload, insert and mutation errors, and the toasts.
- `src/hooks/useAuth.tsx` is not part of this model. The admin route and the new-listing page take its outputs as inputs. The admin flag is `Option<bool>`, where `None` stands for `null`.
- The new-listing page's own admin lookup (`checkAdmin`, `src/pages/AdminNewProperty.jsx:32-60`) is asynchronous I/O. Its result is the `isAdmin` parameter.
- The mutation's `created_at` timestamp is not modelled; it is a clock read.
- Random upload file names are not modelled.
- React state, effects, memoisation, navigation and rendering markup are not modelled beyond the decisions listed above.
- `AdminNewProperty.OrNull`: `Number(text)` is kept as the symbolic `NumberOf(text)` instead of being parsed. The same goes for `AdminNewProperty.OrZero`. A non-numeric text gives `NaN` in the source, which the model does not distinguish.
- `formatCurrencyFull` is not modelled. The `toLocaleString('pt-BR')` rendering of prices in the catalog and the admin list is not modelled either. Both are thin wrappers over the locale library.
- `FormatCurrency.Format`: below 1 000 the model renders an integer as plain digits, which is what `toLocaleString('pt-BR')` gives for such integers. Fractional inputs are outside the integer domain of the model.
- `FormatCurrency.Format` rounds the exact quotient half away from zero. The source calls `toFixed(1)` on a binary double. When the quotient's halfway value is not representable, as for 1 150 000 (1.15), the source can round down to "1,1". The model gives "1,2".
- `FormatCurrency.FormatShort` has the same halfway-rounding difference as `FormatCurrency.Format`.
- `FormatCurrency.Format` and `FormatCurrency.FormatShort` use unbounded integers. Beyond 2^53 the source's `value / 1000000` is inexact, so `% 1 === 0` can misreport. Once the quotient reaches 10^21 (amounts from 10^27 up), `toFixed` switches to exponent notation. The model covers neither effect.
- `ImageReorder.MoveImage` requires `0 <= index < |ordered|`. The source only calls it with the index of a rendered image, so an out-of-range index cannot occur.
- `PropertyFilters.HandlePriceChange` requires at least two slider values. The range slider always supplies two.
- The catalog's filter predicate and the computation of its price bounds are not modelled; `PropertyFilters.tsx` only receives `minPrice`/`maxPrice` and reports the filter state through `onFiltersChange`.
- `ImageReorder.tsx` only reorders; uploading and removing images happen in its caller (`onRemove`), so no append or delete-renumber operation is modelled.
- `Listings.TypeLabel` treats every other string as unmapped. Inherited object keys such as "constructor" are found in a JavaScript object literal. The model does not represent them.
- String lengths and string order are over Dafny characters. The source counts and compares UTF-16 code units, which differ only for characters outside the Basic Multilingual Plane.
- Text with zod's `min(3)` is counted the same way.
- zod's `z.number()` receives a number input's `valueAsNumber`. An empty input is `NaN`, which the model represents as a missing (`None`) value. Infinite values are not modelled.
- The type validation in `ParseType` and the badge labels cover the five types the source lists.

=== FILE: admin_new_property.dfy ===
/** The stand-alone "new listing" page: it first learns whether the user is
    an admin (unknown, no or yes), shows the form only to admins, and on
    submit either sets an error message or sends one normalised row to the
    store. */
module AdminNewProperty {
  import opened Wrappers
  import Text

  /** The page's form state; every input is kept as typed text. */
  datatype FormState = FormState(
    title: string,
    location: string,
    price: string,
    bedrooms: string,
    bathrooms: string,
    parking: string,
    area: string,
    propertyType: string,
    isFeatured: bool)

  /** A numeric column of the row: `null`, the literal 0, or `Number(text)`.
      The text-to-number conversion itself is not modelled. */
  datatype NumberValue = Null | Zero | NumberOf(text: string)

  datatype Payload = Payload(
    title: string,
    location: string,
    price: NumberValue,
    bedrooms: NumberValue,
    bathrooms: NumberValue,
    parking: NumberValue,
    area: NumberValue,
    propertyType: string,
    isFeatured: bool)

  /** A submit either sets `formError` or hands a payload to the mutation. */
  datatype SubmitResult = FormError(message: string) | Mutate(payload: Payload)

  /** What the page renders for the admin check's state. */
  datatype View = LoadingPermissions | NotAllowed | ShowForm

  const NotAdminMessage := "Você precisa ser administrador para criar imóveis."
  const BlankFieldsMessage := "Preencha título e localização."

  /** The state the page starts in. */
  function InitialForm(): (f: FormState)
    ensures f.propertyType == "apartamento" && !f.isFeatured
    ensures Text.IsBlank(f.title) && Text.IsBlank(f.location)
    ensures f.title == "" && f.location == ""
    ensures OrNull(f.price) == Null && OrNull(f.area) == Null
    ensures OrZero(f.bedrooms) == Zero && OrZero(f.bathrooms) == Zero && OrZero(f.parking) == Zero
  {
    FormState("", "", "", "", "", "", "", "apartamento", false)
  }

  /** `x ? Number(x) : null` */
  function OrNull(x: string): (r: NumberValue)
    ensures r == Null <==> x == ""
    ensures x != "" ==> r == NumberOf(x)
  {
    if x == "" then Null else NumberOf(x)
  }

  /** `x ? Number(x) : 0` */
  function OrZero(x: string): (r: NumberValue)
    ensures r == Zero <==> x == ""
    ensures x != "" ==> r == NumberOf(x)
  {
    if x == "" then Zero else NumberOf(x)
  }

  /** `handleSubmit`. `isAdmin` is the page's tri-state: `None` while the
      check runs, then `Some(false)` or `Some(true)`. */
  function HandleSubmit(isAdmin: Option<bool>, f: FormState): (r: SubmitResult)
    ensures isAdmin != Some(true) ==> r == FormError(NotAdminMessage)
    ensures isAdmin == Some(true) && (Text.IsBlank(f.title) || Text.IsBlank(f.location)) ==>
      r == FormError(BlankFieldsMessage)
    ensures r.Mutate? <==> isAdmin == Some(true) && !Text.IsBlank(f.title) && !Text.IsBlank(f.location)
    ensures r.Mutate? ==> Normalizes(f, r.payload)
  {
    if isAdmin != Some(true) then FormError(NotAdminMessage)
    else AdminSubmit(f)
  }

  /** What the payload promises about the form it came from: title and
      location are the trimmed inputs, non-empty and without surrounding
      whitespace; empty numbers take their defaults; the rest passes through. */
  predicate Normalizes(f: FormState, p: Payload) {
    && p.title != "" && p.location != ""
    && !Text.IsWhitespace(p.title[0]) && !Text.IsWhitespace(p.title[|p.title| - 1])
    && !Text.IsWhitespace(p.location[0]) && !Text.IsWhitespace(p.location[|p.location| - 1])
    && p.title == Text.Trim(f.title) && p.location == Text.Trim(f.location)
    && p.price == OrNull(f.price) && p.area == OrNull(f.area)
    && p.bedrooms == OrZero(f.bedrooms)
    && p.bathrooms == OrZero(f.bathrooms)
    && p.parking == OrZero(f.parking)
    && p.propertyType == f.propertyType
    && p.isFeatured == f.isFeatured
  }

  /** The part of `handleSubmit` after the admin check. */
  function AdminSubmit(f: FormState): (r: SubmitResult)
    ensures Text.IsBlank(f.title) || Text.IsBlank(f.location) ==> r == FormError(BlankFieldsMessage)
    ensures r.Mutate? <==> !Text.IsBlank(f.title) && !Text.IsBlank(f.location)
    ensures r.Mutate? ==> Normalizes(f, r.payload)
  {
    var title := Text.Trim(f.title);
    var location := Text.Trim(f.location);
    if title == "" || location == "" then FormError(BlankFieldsMessage)
    else
      Mutate(Payload(title, location, OrNull(f.price), OrZero(f.bedrooms), OrZero(f.bathrooms),
                     OrZero(f.parking), OrNull(f.area), f.propertyType, f.isFeatured))
  }

  /** The page's early returns. */
  function Render(isAdmin: Option<bool>): (v: View)
    ensures v == ShowForm <==> isAdmin == Some(true)
    ensures v == LoadingPermissions <==> isAdmin.None?
  {
    match isAdmin
    case None => LoadingPermissions
    case Some(false) => NotAllowed
    case Some(true) => ShowForm
  }

  /** A submit reaches the store only from the rendered form. */
  lemma MutationOnlyFromForm(isAdmin: Option<bool>, f: FormState)
    ensures HandleSubmit(isAdmin, f).Mutate? ==> Render(isAdmin) == ShowForm
  {
  }

  /** Submitting the untouched form as an admin asks for title and location. */
  lemma EmptyFormAsksForFields()
    ensures HandleSubmit(Some(true), InitialForm()) == FormError(BlankFieldsMessage)
  {
  }

  /** The payload does not change when the form is submitted again after
      trimming title and location by hand. */
  lemma TrimmedResubmitSame(f: FormState)
    ensures HandleSubmit(Some(true), f.(title := Text.Trim(f.title), location := Text.Trim(f.location)))
         == HandleSubmit(Some(true), f)
  {
    Text.TrimIdempotent(f.title);
    Text.TrimIdempotent(f.location);
  }
}

=== FILE: admin_page.dfy ===
/** The admin panel route. Its inputs are the outputs of the auth hook:
    whether the session is still loading, the signed-in user if any, and
    the admin flag (`null` until known). Its outputs are a navigation, if
    any, issued by the effect, and what the page renders. */
module AdminPage {
  import opened Wrappers

  datatype Route = AuthPage | Home

  datatype View = Spinner | Nothing | Panel

  datatype Decision = Decision(redirect: Option<Route>, view: View)

  function Path(r: Route): string {
    match r
    case AuthPage => "/auth"
    case Home => "/"
  }

  /** The effect's navigation: unauthenticated visitors go to the sign-in
      page, signed-in users without the admin flag go home. */
  function Redirect(loading: bool, user: Option<string>, isAdmin: Option<bool>): (r: Option<Route>)
    ensures loading ==> r.None?
    ensures !loading && user.None? ==> r == Some(AuthPage)
    ensures !loading && user.Some? && isAdmin != Some(true) ==> r == Some(Home)
    ensures r.None? <==> loading || (user.Some? && isAdmin == Some(true))
  {
    if !loading && user.None? then Some(AuthPage)
    else if !loading && isAdmin != Some(true) then Some(Home)
    else None
  }

  /** The early returns of the component. */
  function Show(loading: bool, user: Option<string>, isAdmin: Option<bool>): (v: View)
    ensures loading <==> v == Spinner
    ensures v == Panel <==> !loading && user.Some? && isAdmin == Some(true)
  {
    if loading then Spinner
    else if user.None? || isAdmin != Some(true) then Nothing
    else Panel
  }

  function Decide(loading: bool, user: Option<string>, isAdmin: Option<bool>): Decision {
    Decision(Redirect(loading, user, isAdmin), Show(loading, user, isAdmin))
  }

  /** The effect and the render agree: the panel shows exactly when no
      redirect happens after loading, and whenever the page renders
      nothing a redirect is under way. */
  lemma RedirectAgreesWithView(loading: bool, user: Option<string>, isAdmin: Option<bool>)
    ensures var d := Decide(loading, user, isAdmin);
      && (d.view == Panel <==> !loading && d.redirect.None?)
      && (d.view == Nothing ==> d.redirect.Some?)
      && (d.view == Spinner ==> d.redirect.None?)
  {
  }

  /** Without a user the target is the sign-in page, never home, whatever
      the admin flag says. */
  lemma NoUserGoesToAuth(user: Option<string>, isAdmin: Option<bool>)
    requires user.None?
    ensures Redirect(false, user, isAdmin) == Some(AuthPage)
    ensures Path(Redirect(false, user, isAdmin).value) == "/auth"
  {
  }
}

=== FILE: format_currency.dfy ===
/** Abbreviated amounts in Brazilian reais for marketing labels and slider
    captions: "R$ 500 mil", "R$ 1,2 milhões", "R$ 850k", "R$ 2M". The model
    works on whole amounts; a fractional tenth is written after a decimal
    comma. */
module FormatCurrency {
  import opened Wrappers
  import Text

  const Thousand: int := 1000
  const Million: int := 1000000

  function Abs(v: int): nat {
    if v < 0 then -v else v
  }

  /** The unit of the tier an amount falls in; the tier depends on |v| only. */
  function TierUnit(v: int): int {
    if Abs(v) >= Million then Million else if Abs(v) >= Thousand then Thousand else 1
  }

  /** `toFixed(1)` of a / unit, in tenths: the nearest tenth, halves rounded up. */
  function RoundedTenths(a: nat, unit: int): (q: nat)
    requires unit > 0
    ensures 2 * unit * q <= 20 * a + unit < 2 * unit * q + 2 * unit
  {
    var n, d := 20 * a + unit, 2 * unit;
    var q := n / d;
    assert n == d * q + n % d;
    q
  }

  /** The number part of an abbreviated amount `v / unit`: the integer
      quotient when the division is exact (`toFixed(0)`), otherwise one
      fractional digit after a comma (`toFixed(1).replace('.', ',')`). */
  function Numeral(v: int, unit: int): (s: string)
    requires unit == Thousand || unit == Million
    ensures v % unit == 0 ==> s == Text.IntToString(v / unit)
    ensures v % unit != 0 ==>
      && |s| >= 3 && s[|s| - 2] == ',' && Text.IsDigit(s[|s| - 1])
      && forall i :: 0 <= i < |s| - 2 ==> s[i] != ','
    ensures |s| > 0 && (s[0] == '-' <==> v < 0)
    ensures Text.IsDigit(s[|s| - 1])
  {
    if v % unit == 0 then Text.IntToString(v / unit)
    else
      var q := RoundedTenths(Abs(v), unit);
      var digits := Text.NatToString(q / 10);
      (if v < 0 then "-" else "") + digits + "," + [Text.DigitChar(q % 10)]
  }

  predicate EndsWith(s: string, suffix: string) {
    |s| >= |suffix| && s[|s| - |suffix|..] == suffix
  }

  /** `formatCurrency(value)`. Below a thousand the amount is written in full. */
  function Format(v: int): (r: string)
    ensures v == 0 ==> r == "R$ 0"
    ensures |r| > 3 && r[..3] == "R$ "
    ensures Abs(v) >= Million ==> EndsWith(r, " milhão") || EndsWith(r, " milhões")
    ensures EndsWith(r, " milhão") <==> v == Million || v == -Million
    ensures Thousand <= Abs(v) < Million ==> EndsWith(r, " mil")
    ensures Abs(v) < Thousand ==> r == "R$ " + Text.IntToString(v)
  {
    if v == 0 then "R$ 0"
    else if Abs(v) >= Million then
      var suffix := if v == Million || v == -Million then " milhão" else " milhões";
      Cat3("R$ ", Numeral(v, Million), suffix)
    else if Abs(v) >= Thousand then
      Cat3("R$ ", Numeral(v, Thousand), " mil")
    else
      "R$ " + Text.IntToString(v)
  }

  /** `formatCurrencyShort(value)`, the slider caption. */
  function FormatShort(v: int): (r: string)
    ensures v == 0 ==> r == "R$ 0"
    ensures |r| > 3 && r[..3] == "R$ "
    ensures Abs(v) >= Million <==> EndsWith(r, "M")
    ensures Thousand <= Abs(v) < Million <==> EndsWith(r, "k")
    ensures Abs(v) < Thousand ==> r == "R$ " + Text.IntToString(v)
  {
    if v == 0 then "R$ 0"
    else if Abs(v) >= Million then Cat3("R$ ", Numeral(v, Million), "M")
    else if Abs(v) >= Thousand then Cat3("R$ ", Numeral(v, Thousand), "k")
    else
      "R$ " + Text.IntToString(v)
  }

  /** Joins prefix, number and suffix; the number ends in a digit, so the
      suffix is exactly what follows it. */
  function Cat3(prefix: string, number: string, suffix: string): (r: string)
    requires |number| > 0 && Text.IsDigit(number[|number| - 1])
    ensures r == prefix + number + suffix
    ensures r[..|prefix|] == prefix && r[|prefix|..] == number + suffix
    ensures EndsWith(r, suffix)
    ensures r[|r| - 1] == (if |suffix| > 0 then suffix[|suffix| - 1] else number[|number| - 1])
  {
    var r := prefix + number + suffix;
    assert r[|r| - |suffix|..] == suffix;
    assert r[|prefix|..] == number + suffix;
    r
  }

  // ---------------------------------------------------------------------------
  // Reading an abbreviated amount back

  /** The value of a number without sign, in tenths. */
  function ParseUnsignedTenths(s: string): Option<int> {
    if |s| >= 2 && s[|s| - 2] == ',' && Text.IsDigit(s[|s| - 1]) then
      match Text.ParseNat(s[..|s| - 2])
      case None => None
      case Some(n) => Some(10 * n + Text.DigitValue(s[|s| - 1]))
    else
      match Text.ParseNat(s)
      case None => None
      case Some(n) => Some(10 * n)
  }

  /** The value of a number with an optional '-', in tenths. */
  function ParseTenths(s: string): Option<int> {
    if |s| > 0 && s[0] == '-' then
      match ParseUnsignedTenths(s[1..])
      case None => None
      case Some(t) => Some(-t)
    else
      ParseUnsignedTenths(s)
  }

  function Scale(t: Option<int>, unit: int): Option<int> {
    match t
    case None => None
    case Some(x) => Some(x * (unit / 10))
  }

  /** Reads a `Format` label back into an amount. */
  function Parse(s: string): Option<int> {
    if |s| < 3 || s[..3] != "R$ " then None
    else
      var body := s[3..];
      if EndsWith(body, " milhões") then Scale(ParseTenths(body[..|body| - 8]), Million)
      else if EndsWith(body, " milhão") then Scale(ParseTenths(body[..|body| - 7]), Million)
      else if EndsWith(body, " mil") then Scale(ParseTenths(body[..|body| - 4]), Thousand)
      else Text.ParseInt(body)
  }

  /** Reads a `FormatShort` label back into an amount. */
  function ParseShort(s: string): Option<int> {
    if |s| < 3 || s[..3] != "R$ " then None
    else
      var body := s[3..];
      if EndsWith(body, "M") then Scale(ParseTenths(body[..|body| - 1]), Million)
      else if EndsWith(body, "k") then Scale(ParseTenths(body[..|body| - 1]), Thousand)
      else Text.ParseInt(body)
  }

  /** The tenths a numeral stands for. */
  function NumeralTenths(v: int, unit: int): int
    requires unit == Thousand || unit == Million
  {
    if v % unit == 0 then v / unit * 10
    else if v < 0 then -(RoundedTenths(Abs(v), unit) as int)
    else RoundedTenths(Abs(v), unit)
  }

  /** The amount a label stands for: exact below a thousand and on exact
      multiples of the unit, otherwise the nearest tenth of the unit. */
  function Shown(v: int): int {
    if Abs(v) < Thousand then v else NumeralTenths(v, TierUnit(v)) * (TierUnit(v) / 10)
  }

  lemma ParseUnsignedNat(n: nat)
    ensures ParseUnsignedTenths(Text.NatToString(n)) == Some(10 * n)
  {
    Text.NatToStringRoundTrip(n);
  }

  lemma ParseTenthsInt(q: int)
    ensures ParseTenths(Text.IntToString(q)) == Some(10 * q)
  {
    var s := Text.IntToString(q);
    if q < 0 {
      assert s[1..] == Text.NatToString(-q);
      ParseUnsignedNat(-q);
    } else {
      ParseUnsignedNat(q);
    }
  }

  lemma ParseTenthsFraction(negative: bool, n: nat, d: nat)
    requires d < 10
    ensures
      var s := (if negative then "-" else "") + Text.NatToString(n) + "," + [Text.DigitChar(d)];
      ParseTenths(s) == Some(if negative then -(10 * n + d) else 10 * n + d)
  {
    var digits := Text.NatToString(n);
    var u := digits + "," + [Text.DigitChar(d)];
    assert u[..|u| - 2] == digits;
    Text.NatToStringRoundTrip(n);
    assert ParseUnsignedTenths(u) == Some(10 * n + d);
    if negative {
      assert ("-" + u)[1..] == u;
      assert "-" + digits + "," + [Text.DigitChar(d)] == "-" + u;
    } else {
      assert "" + digits + "," + [Text.DigitChar(d)] == u;
    }
  }

  lemma ParseNumeral(v: int, unit: int)
    requires unit == Thousand || unit == Million
    ensures ParseTenths(Numeral(v, unit)) == Some(NumeralTenths(v, unit))
  {
    if v % unit == 0 {
      ParseTenthsInt(v / unit);
    } else {
      var q := RoundedTenths(Abs(v), unit);
      ParseTenthsFraction(v < 0, q / 10, q % 10);
    }
  }

  lemma NotEndsWith(s: string, suffix: string)
    requires |s| > 0 && |suffix| > 0 && s[|s| - 1] != suffix[|suffix| - 1]
    ensures !EndsWith(s, suffix)
  {
  }

  lemma IntBodyParses(v: int)
    ensures Text.IsDigit(Text.IntToString(v)[|Text.IntToString(v)| - 1])
    ensures Text.ParseInt(Text.IntToString(v)) == Some(v)
  {
    Text.IntToStringRoundTrip(v);
  }

  /** Every `Format` label reads back as the amount it shows. */
  lemma FormatParses(v: int)
    ensures Parse(Format(v)) == Some(Shown(v))
  {
    var r := Format(v);
    var body := r[3..];
    if Abs(v) >= Million {
      var n := Numeral(v, Million);
      ParseNumeral(v, Million);
      if v == Million || v == -Million {
        assert body == n + " milhão";
        NotEndsWith(body, " milhões");
        assert body[..|body| - 7] == n;
      } else {
        assert body == n + " milhões";
        assert body[..|body| - 8] == n;
      }
    } else if Abs(v) >= Thousand {
      var n := Numeral(v, Thousand);
      ParseNumeral(v, Thousand);
      assert body == n + " mil";
      NotEndsWith(body, " milhões");
      NotEndsWith(body, " milhão");
      assert body[..|body| - 4] == n;
    } else {
      IntBodyParses(v);
      assert body == Text.IntToString(v);
      NotEndsWith(body, " milhões");
      NotEndsWith(body, " milhão");
      NotEndsWith(body, " mil");
    }
  }

  /** Every `FormatShort` label reads back as the amount it shows. */
  lemma FormatShortParses(v: int)
    ensures ParseShort(FormatShort(v)) == Some(Shown(v))
  {
    var r := FormatShort(v);
    var body := r[3..];
    if Abs(v) >= Million {
      var n := Numeral(v, Million);
      ParseNumeral(v, Million);
      assert body == n + "M";
      assert body[..|body| - 1] == n;
    } else if Abs(v) >= Thousand {
      var n := Numeral(v, Thousand);
      ParseNumeral(v, Thousand);
      assert body == n + "k";
      NotEndsWith(body, "M");
      assert body[..|body| - 1] == n;
    } else {
      IntBodyParses(v);
      assert body == Text.IntToString(v);
      NotEndsWith(body, "M");
      NotEndsWith(body, "k");
    }
  }

  /** Rounding to tenths moves a by at most half a tenth of the unit, and
      not at all when a is a whole number of tenths. */
  lemma RoundingError(a: nat, unit: int)
    requires unit == Thousand || unit == Million
    ensures Abs(RoundedTenths(a, unit) * (unit / 10) - a) * 20 <= unit
    ensures a % (unit / 10) == 0 ==> RoundedTenths(a, unit) * (unit / 10) == a
  {
    var q := RoundedTenths(a, unit);
    if unit == Thousand {
      assert q * (unit / 10) == 100 * q;
      if a % 100 == 0 {
        var m := a / 100;
        assert a == 100 * m;
      }
    } else {
      assert q * (unit / 10) == 100000 * q;
      if a % 100000 == 0 {
        var m := a / 100000;
        assert a == 100000 * m;
      }
    }
  }

  /** A multiple of the unit is shown as itself. */
  lemma MultipleShown(v: int, unit: int)
    requires unit == Thousand || unit == Million
    requires v % unit == 0
    ensures v / unit * 10 * (unit / 10) == v
  {
    var q := v / unit;
    assert v == unit * q;
    if unit == Thousand {
      assert q * 10 * 100 == 1000 * q;
    } else {
      assert q * 10 * 100000 == 1000000 * q;
    }
  }

  /** The amount a label shows is off by at most half a tenth of its unit. */
  lemma ShownWithinHalfTenth(v: int)
    ensures Abs(Shown(v) - v) * 20 <= TierUnit(v)
  {
    var unit := TierUnit(v);
    if Abs(v) >= Thousand {
      assert unit == Thousand || unit == Million;
      if v % unit == 0 {
        MultipleShown(v, unit);
      } else {
        var a := Abs(v);
        var shown := RoundedTenths(a, unit) * (unit / 10);
        RoundingError(a, unit);
        assert Shown(v) == if v < 0 then -shown else shown;
        assert Abs(Shown(v) - v) == Abs(shown - a);
      }
    }
  }

  /** Amounts that are whole tenths of their unit are shown exactly. */
  predicate WholeTenths(v: int) {
    Abs(v) < Thousand || Abs(v) % (TierUnit(v) / 10) == 0
  }

  lemma ShownExactOnWholeTenths(v: int)
    requires WholeTenths(v)
    ensures Shown(v) == v
  {
    var unit := TierUnit(v);
    if Abs(v) >= Thousand {
      if v % unit == 0 {
        MultipleShown(v, unit);
      } else {
        RoundingError(Abs(v), unit);
      }
    }
  }

  /** Round trip: a label for a whole number of tenths reads back as the amount. */
  lemma FormatRoundTrip(v: int)
    requires WholeTenths(v)
    ensures Parse(Format(v)) == Some(v)
    ensures ParseShort(FormatShort(v)) == Some(v)
  {
    FormatParses(v);
    FormatShortParses(v);
    ShownExactOnWholeTenths(v);
  }

  /** The label of a negative amount in a tier with the given suffix: the
      number gets a leading '-', the rest is unchanged. */
  lemma NegatedLabel(n: string, m: string, suffix: string)
    requires |n| > 0 && Text.IsDigit(n[|n| - 1]) && m == "-" + n
    ensures Cat3("R$ ", m, suffix) == "R$ -" + Cat3("R$ ", n, suffix)[3..]
  {
    assert Cat3("R$ ", n, suffix)[3..] == n + suffix;
  }

  lemma NegatedMillions(v: int)
    requires v >= Million
    ensures Format(-v) == "R$ -" + Format(v)[3..]
    ensures FormatShort(-v) == "R$ -" + FormatShort(v)[3..]
  {
    NegatedNumeral(v, Million);
    var suffix := if v == Million then " milhão" else " milhões";
    NegatedLabel(Numeral(v, Million), Numeral(-v, Million), suffix);
    NegatedLabel(Numeral(v, Million), Numeral(-v, Million), "M");
  }

  lemma NegatedThousands(v: int)
    requires Thousand <= v < Million
    ensures Format(-v) == "R$ -" + Format(v)[3..]
    ensures FormatShort(-v) == "R$ -" + FormatShort(v)[3..]
  {
    NegatedNumeral(v, Thousand);
    NegatedLabel(Numeral(v, Thousand), Numeral(-v, Thousand), " mil");
    NegatedLabel(Numeral(v, Thousand), Numeral(-v, Thousand), "k");
  }

  lemma NegatedSmall(v: int)
    requires 0 < v < Thousand
    ensures Format(-v) == "R$ -" + Format(v)[3..]
    ensures FormatShort(-v) == "R$ -" + FormatShort(v)[3..]
  {
    var n := Text.NatToString(v);
    assert ("R$ " + n)[3..] == n;
  }

  /** A negative amount gets the label of its absolute value with a '-' in
      front of the number, so `v` and `-v` share the tier and the suffix. */
  lemma NegationAddsSign(v: int)
    requires v > 0
    ensures Format(-v) == "R$ -" + Format(v)[3..]
    ensures FormatShort(-v) == "R$ -" + FormatShort(v)[3..]
  {
    if v >= Million {
      NegatedMillions(v);
    } else if v >= Thousand {
      NegatedThousands(v);
    } else {
      NegatedSmall(v);
    }
  }

  lemma NegatedNumeral(v: int, unit: int)
    requires v > 0 && (unit == Thousand || unit == Million)
    ensures Numeral(-v, unit) == "-" + Numeral(v, unit)
  {
    if v % unit == 0 {
      var q := v / unit;
      assert v == unit * q;
      assert -v == unit * (-q);
      assert (-v) % unit == 0 && (-v) / unit == -q;
    } else {
      assert (-v) % unit != 0;
    }
  }
}

=== FILE: image_reorder.dfy ===
/** The admin image manager of a listing: its images are shown in
    `display_order` order, and the admin moves one image a step up or down,
    or promotes one to the cover position. Each change rewrites the whole
    list so that `display_order` is the position and only the first image
    is primary, and the rewritten list is what gets sent to the store. */
module ImageReorder {
  import opened Wrappers
  import StableSort

  datatype ImageItem = ImageItem(id: string, imageUrl: string, isPrimary: bool, displayOrder: Option<int>)

  /** What identifies an image, as opposed to its place in the order. */
  datatype Asset = Asset(id: string, imageUrl: string)

  datatype Direction = Up | Down

  /** The sort key `display_order || 0`: a missing order counts as 0. */
  function OrderKey(img: ImageItem): (k: int)
    ensures img.displayOrder.None? ==> k == 0
    ensures img.displayOrder.Some? ==> k == img.displayOrder.value
  {
    img.displayOrder.GetOr(0)
  }

  function AssetOf(img: ImageItem): Asset {
    Asset(img.id, img.imageUrl)
  }

  function Assets(s: seq<ImageItem>): seq<Asset> {
    StableSort.Project(s, AssetOf)
  }

  /** The order invariant: every image's `display_order` is its position and
      `is_primary` holds exactly at position 0. */
  predicate Normalized(s: seq<ImageItem>)
    ensures Normalized(s) ==> forall i :: 0 <= i < |s| ==> OrderKey(s[i]) == i
  {
    forall i :: 0 <= i < |s| ==> s[i].displayOrder == Some(i) && (s[i].isPrimary <==> i == 0)
  }

  /** The list the manager starts from: the images sorted by `OrderKey`. */
  function InitialOrder(images: seq<ImageItem>): (r: seq<ImageItem>)
    ensures StableSort.IsStableSortOf(r, images, OrderKey)
  {
    StableSort.Sort(images, OrderKey)
  }

  /** The full-list rewrite both operations end with: positions and
      images stay, order and primary flag come from the position. */
  function Renumber(s: seq<ImageItem>): (r: seq<ImageItem>)
    ensures |r| == |s|
    ensures Normalized(r)
    ensures Assets(r) == Assets(s)
  {
    seq(|s|, i requires 0 <= i < |s| => s[i].(displayOrder := Some(i), isPrimary := i == 0))
  }

  /** The neighbour position a move targets. */
  function Target(index: int, dir: Direction): int {
    if dir == Up then index - 1 else index + 1
  }

  function Swap(s: seq<ImageItem>, i: nat, j: nat): (r: seq<ImageItem>)
    requires i < |s| && j < |s|
    ensures |r| == |s|
    ensures r[i] == s[j] && r[j] == s[i]
    ensures forall k :: 0 <= k < |s| && k != i && k != j ==> r[k] == s[k]
    ensures multiset(r) == multiset(s)
  {
    s[i := s[j]][j := s[i]]
  }

  /** `moveImage(index, direction)`. `None` is the early return: the state is
      kept and `onReorder` is not called. `Some(images)` is the new state,
      which is also the list handed to `onReorder`. */
  function MoveImage(ordered: seq<ImageItem>, index: int, dir: Direction): (r: Option<seq<ImageItem>>)
    requires 0 <= index < |ordered|
    ensures r.None? <==> (dir == Up && index == 0) || (dir == Down && index == |ordered| - 1)
    ensures r.Some? ==> |r.value| == |ordered| && Normalized(r.value)
    ensures r.Some? ==>
      var j := Target(index, dir);
      && AssetOf(r.value[index]) == AssetOf(ordered[j])
      && AssetOf(r.value[j]) == AssetOf(ordered[index])
      && forall k :: 0 <= k < |ordered| && k != index && k != j ==> AssetOf(r.value[k]) == AssetOf(ordered[k])
    ensures r.Some? ==> multiset(Assets(r.value)) == multiset(Assets(ordered))
  {
    var j := Target(index, dir);
    if j < 0 || j >= |ordered| then None
    else
      var swapped := Swap(ordered, index, j);
      var r := Renumber(swapped);
      ProjectSwap(ordered, index, j);
      Some(r)
  }

  lemma ProjectSwap(s: seq<ImageItem>, i: nat, j: nat)
    requires i < |s| && j < |s|
    ensures multiset(Assets(Swap(s, i, j))) == multiset(Assets(s))
  {
    assert Assets(Swap(s, i, j)) == Assets(s)[i := AssetOf(s[j])][j := AssetOf(s[i])];
  }

  /** `findIndex(img => img.id === imageId)`: the first position holding the
      id, or -1. */
  function FindIndex(s: seq<ImageItem>, imageId: string): (r: int)
    ensures -1 <= r < |s|
    ensures r == -1 <==> forall k :: 0 <= k < |s| ==> s[k].id != imageId
    ensures r >= 0 ==> s[r].id == imageId && forall k :: 0 <= k < r ==> s[k].id != imageId
    decreases |s|
  {
    if |s| == 0 then -1
    else if s[0].id == imageId then 0
    else
      var r := FindIndex(s[1..], imageId);
      if r == -1 then -1 else r + 1
  }

  /** The list with the image at `p` taken out and put in front. */
  function Promote(s: seq<ImageItem>, p: nat): (r: seq<ImageItem>)
    requires p < |s|
    ensures |r| == |s|
    ensures r[0] == s[p] && r[1..] == s[..p] + s[p + 1..]
    ensures multiset(r) == multiset(s)
  {
    assert s == s[..p] + [s[p]] + s[p + 1..];
    [s[p]] + s[..p] + s[p + 1..]
  }

  /** `handleSetPrimary(imageId)`. `None` is the early return (the id is
      absent or already first: nothing is written and neither callback
      runs). `Some(images)` is the new state, handed to `onReorder` before
      `onSetPrimary(imageId)` is called. */
  function SetPrimary(ordered: seq<ImageItem>, imageId: string): (r: Option<seq<ImageItem>>)
    ensures r.None? <==>
      (forall k :: 0 <= k < |ordered| ==> ordered[k].id != imageId) || (|ordered| > 0 && ordered[0].id == imageId)
    ensures r.Some? ==> |r.value| == |ordered| && Normalized(r.value) && r.value[0].id == imageId
    ensures r.Some? ==>
      var p := FindIndex(ordered, imageId);
      && AssetOf(r.value[0]) == AssetOf(ordered[p])
      && Assets(r.value)[1..] == Assets(ordered[..p] + ordered[p + 1..])
    ensures r.Some? ==> multiset(Assets(r.value)) == multiset(Assets(ordered))
  {
    var p := FindIndex(ordered, imageId);
    if p <= 0 then None
    else
      var promoted := Promote(ordered, p);
      var r := Renumber(promoted);
      assert Assets(r)[1..] == Assets(promoted[1..]);
      PromoteAssets(ordered, p);
      Some(r)
  }

  lemma PromoteAssets(s: seq<ImageItem>, p: nat)
    requires p < |s|
    ensures multiset(Assets(Promote(s, p))) == multiset(Assets(s))
  {
    var r := Promote(s, p);
    assert s == s[..p] + [s[p]] + s[p + 1..];
    assert Assets(r) == [AssetOf(s[p])] + Assets(s[..p]) + Assets(s[p + 1..]);
    assert Assets(s) == Assets(s[..p]) + [AssetOf(s[p])] + Assets(s[p + 1..]);
  }

  // ---------------------------------------------------------------------------
  // Properties of the operations

  /** In a normalized list the orders are exactly 0..n-1 and the only
      primary image is the first. */
  lemma NormalizedShape(s: seq<ImageItem>)
    requires Normalized(s) && |s| > 0
    ensures (set i | 0 <= i < |s| && s[i].isPrimary) == {0}
    ensures forall k :: Some(k) in Orders(s) <==> 0 <= k < |s|
  {
    forall k | 0 <= k < |s|
      ensures Some(k) in Orders(s)
    {
      assert Orders(s)[k] == Some(k);
    }
  }

  function Orders(s: seq<ImageItem>): seq<Option<int>> {
    StableSort.Project(s, (img: ImageItem) => img.displayOrder)
  }

  /** Renumbering an already normalized list changes nothing. */
  lemma RenumberNormalized(s: seq<ImageItem>)
    requires Normalized(s)
    ensures Renumber(s) == s
  {
  }

  /** Renumbering only looks at the images' order, not their old numbers. */
  lemma RenumberByAssets(s: seq<ImageItem>, t: seq<ImageItem>)
    requires Assets(s) == Assets(t)
    ensures Renumber(s) == Renumber(t)
  {
    assert |s| == |Assets(s)|;
    forall i | 0 <= i < |s|
      ensures Renumber(s)[i] == Renumber(t)[i]
    {
      assert Assets(s)[i] == Assets(t)[i];
    }
  }

  /** Moving an image up and then moving it back down restores the list, up
      to the renumbering; a normalized list comes back exactly. */
  lemma MoveUpThenDown(s: seq<ImageItem>, index: int)
    requires 0 < index < |s|
    ensures MoveImage(s, index, Up).Some?
    ensures MoveImage(MoveImage(s, index, Up).value, index - 1, Down) == Some(Renumber(s))
    ensures Normalized(s) ==> MoveImage(MoveImage(s, index, Up).value, index - 1, Down) == Some(s)
  {
    var t := MoveImage(s, index, Up).value;
    var u := MoveImage(t, index - 1, Down).value;
    forall k | 0 <= k < |s|
      ensures Assets(u)[k] == Assets(s)[k]
    {
    }
    RenumberByAssets(u, s);
    RenumberNormalized(u);
    if Normalized(s) {
      RenumberNormalized(s);
    }
  }

  /** Moving an image down and then back up restores the list likewise. */
  lemma MoveDownThenUp(s: seq<ImageItem>, index: int)
    requires 0 <= index < |s| - 1
    ensures MoveImage(s, index, Down).Some?
    ensures MoveImage(MoveImage(s, index, Down).value, index + 1, Up) == Some(Renumber(s))
  {
    var t := MoveImage(s, index, Down).value;
    var u := MoveImage(t, index + 1, Up).value;
    forall k | 0 <= k < |s|
      ensures Assets(u)[k] == Assets(s)[k]
    {
    }
    RenumberByAssets(u, s);
    RenumberNormalized(u);
  }

  /** Promoting the same image twice: the second time is the early return. */
  lemma SetPrimaryIdempotent(s: seq<ImageItem>, imageId: string)
    requires SetPrimary(s, imageId).Some?
    ensures SetPrimary(SetPrimary(s, imageId).value, imageId) == None
  {
  }

  /** Reopening the manager on a list it wrote shows the same order: the
      initial sort leaves a normalized list as it is. */
  lemma InitialOrderOfNormalized(s: seq<ImageItem>)
    requires Normalized(s)
    ensures InitialOrder(s) == s
  {
    assert StableSort.SortedBy(s, OrderKey);
    StableSort.SortSortedIsIdentity(s, OrderKey);
  }
}

=== FILE: listings.dfy ===
/** The read side of listings: the public catalog's cards, the detail
    page's carousel and type badge, and the admin list's thumbnail. All of
    them read the image rows the admin image manager writes. */
module Listings {
  import opened Wrappers
  import StableSort
  import ImageReorder
  import PropertyForm

  type ImageItem = ImageReorder.ImageItem

  /** A fetched property with its attached image rows, in query order. */
  datatype Listing = Listing(
    id: string,
    title: string,
    propertyType: string,
    location: string,
    bedrooms: int,
    bathrooms: int,
    parking: int,
    area: real,
    images: seq<ImageItem>)

  /** The props of one catalog card (the price text is not modelled). */
  datatype Card = Card(
    id: string,
    images: seq<string>,
    typeLabel: string,
    title: string,
    location: string,
    bedrooms: int,
    bathrooms: int,
    parking: int,
    area: real)

  /** One row of the admin list; `thumbnail` is the image rendered, if any. */
  datatype Row = Row(id: string, title: string, thumbnail: Option<string>)

  function Url(img: ImageItem): string {
    img.imageUrl
  }

  function Urls(images: seq<ImageItem>): (r: seq<string>)
    ensures |r| == |images|
  {
    StableSort.Project(images, Url)
  }

  /** `sortedImages`: a copy of the rows sorted by `display_order || 0`,
      mapped to their URLs. */
  function SortedImages(images: seq<ImageItem>): (r: seq<string>)
    ensures |r| == |images|
    ensures exists t :: StableSort.IsStableSortOf(t, images, ImageReorder.OrderKey) && r == Urls(t)
    ensures multiset(r) == multiset(Urls(images))
  {
    var t := StableSort.Sort(images, ImageReorder.OrderKey);
    StableSort.ProjectSortPermutes(images, ImageReorder.OrderKey, Url);
    Urls(t)
  }

  /** The badge text of each known type. */
  function DisplayName(t: PropertyForm.PropertyType): string {
    match t
    case Apartamento => "Apartamento"
    case Casa => "Casa"
    case Cobertura => "Cobertura"
    case Terreno => "Terreno"
    case Comercial => "Comercial"
  }

  /** `typeMap[type] || type`. */
  function TypeLabel(t: string): (r: string)
    ensures PropertyForm.ParseType(t).Some? ==> r == DisplayName(PropertyForm.ParseType(t).value)
    ensures PropertyForm.ParseType(t).None? ==> r == t
  {
    if t == "apartamento" then "Apartamento"
    else if t == "casa" then "Casa"
    else if t == "cobertura" then "Cobertura"
    else if t == "terreno" then "Terreno"
    else if t == "comercial" then "Comercial"
    else t
  }

  function CardOf(p: Listing): Card {
    Card(p.id, SortedImages(p.images), TypeLabel(p.propertyType), p.title, p.location,
         p.bedrooms, p.bathrooms, p.parking, p.area)
  }

  /** The catalog grid: one card per fetched property, in query order. */
  function Cards(ps: seq<Listing>): (r: seq<Card>)
    ensures |r| == |ps|
    ensures forall i :: 0 <= i < |ps| ==>
      && r[i].id == ps[i].id && r[i].title == ps[i].title && r[i].location == ps[i].location
      && multiset(r[i].images) == multiset(Urls(ps[i].images))
      && (exists t :: StableSort.IsStableSortOf(t, ps[i].images, ImageReorder.OrderKey) && r[i].images == Urls(t))
      && r[i].typeLabel == TypeLabel(ps[i].propertyType)
      && r[i].bedrooms == ps[i].bedrooms && r[i].bathrooms == ps[i].bathrooms
      && r[i].parking == ps[i].parking && r[i].area == ps[i].area
  {
    StableSort.Project(ps, CardOf)
  }

  /** `property_images.find(img => img.is_primary)?.image_url`. */
  function PrimaryImage(images: seq<ImageItem>): (r: Option<string>)
    ensures r.None? <==> forall i :: 0 <= i < |images| ==> !images[i].isPrimary
    ensures r.Some? ==> exists i :: (0 <= i < |images| && images[i].isPrimary && r.value == images[i].imageUrl
      && forall j :: 0 <= j < i ==> !images[j].isPrimary)
  {
    if |images| == 0 then None
    else if images[0].isPrimary then Some(images[0].imageUrl)
    else
      var r := PrimaryImage(images[1..]);
      if r.Some? then
        var i :| 0 <= i < |images| - 1 && images[1..][i].isPrimary && r.value == images[1..][i].imageUrl
          && forall j :: 0 <= j < i ==> !images[1..][j].isPrimary;
        assert images[i + 1].isPrimary && forall j :: 0 <= j < i + 1 ==> !images[j].isPrimary;
        r
      else
        r
  }

  /** `primaryImage && <img …/>`: an empty URL is falsy and shows nothing. */
  function Thumbnail(images: seq<ImageItem>): (r: Option<string>)
    ensures r.Some? <==> exists i :: (0 <= i < |images| && images[i].isPrimary && images[i].imageUrl != ""
      && forall j :: 0 <= j < i ==> !images[j].isPrimary)
    ensures r.Some? ==> r == PrimaryImage(images)
  {
    var p := PrimaryImage(images);
    if p.Some? && p.value != "" then p else None
  }

  function RowOf(p: Listing): Row {
    Row(p.id, p.title, Thumbnail(p.images))
  }

  /** The admin list: one row per fetched property, in query order; a row
      has a thumbnail only when some image is flagged primary, and then it
      is the first flagged one's URL. */
  function Rows(ps: seq<Listing>): (r: seq<Row>)
    ensures |r| == |ps|
    ensures forall i :: 0 <= i < |ps| ==> r[i].id == ps[i].id && r[i].title == ps[i].title
    ensures forall i :: 0 <= i < |ps| ==>
      (r[i].thumbnail.Some? ==> r[i].thumbnail.value != "" && r[i].thumbnail == PrimaryImage(ps[i].images))
    ensures forall i :: 0 <= i < |ps| ==>
      (PrimaryImage(ps[i].images).Some? && PrimaryImage(ps[i].images).value != "" ==>
         r[i].thumbnail == PrimaryImage(ps[i].images))
    ensures forall i :: 0 <= i < |ps| ==>
      ((forall k :: 0 <= k < |ps[i].images| ==> !ps[i].images[k].isPrimary) ==> r[i].thumbnail.None?)
  {
    StableSort.Project(ps, RowOf)
  }

  // ---------------------------------------------------------------------------
  // Properties

  /** The type label is a rewrite exactly for the five known types, and a
      type written by the admin form always gets its mapped name. */
  lemma LabelChangesOnlyKnownTypes(t: string)
    ensures TypeLabel(t) != t <==> PropertyForm.ParseType(t).Some?
  {
  }

  lemma LabelOfStoredType(p: PropertyForm.PropertyType)
    ensures TypeLabel(PropertyForm.TypeName(p)) == DisplayName(p)
  {
    match p
    case Apartamento =>
    case Casa =>
    case Cobertura =>
    case Terreno =>
    case Comercial =>
  }

  /** Images with equal keys keep their stored order: the carousel is the
      unique stable ordering, so a list already in key order is shown as
      stored. */
  lemma SortedImagesOfSorted(images: seq<ImageItem>)
    requires StableSort.SortedBy(images, ImageReorder.OrderKey)
    ensures SortedImages(images) == Urls(images)
  {
    StableSort.SortSortedIsIdentity(images, ImageReorder.OrderKey);
  }

  /** A list the image manager wrote is in key order. */
  lemma NormalizedIsSorted(s: seq<ImageItem>)
    requires ImageReorder.Normalized(s)
    ensures StableSort.SortedBy(s, ImageReorder.OrderKey)
  {
    forall i, j | 0 <= i < j < |s|
      ensures ImageReorder.OrderKey(s[i]) <= ImageReorder.OrderKey(s[j])
    {
      assert s[i].displayOrder == Some(i) && s[j].displayOrder == Some(j);
    }
  }

  /** The detail page and the catalog show a list the manager wrote in the
      manager's order. */
  lemma ShownInManagerOrder(s: seq<ImageItem>)
    requires ImageReorder.Normalized(s)
    ensures SortedImages(s) == Urls(s)
  {
    NormalizedIsSorted(s);
    SortedImagesOfSorted(s);
  }

  /** The admin list's thumbnail of a list the manager wrote is its first
      image. */
  lemma {:induction false} PrimaryOfNormalized(s: seq<ImageItem>)
    requires ImageReorder.Normalized(s)
    ensures |s| == 0 ==> PrimaryImage(s).None?
    ensures |s| > 0 ==> PrimaryImage(s) == Some(s[0].imageUrl)
  {
    if |s| > 0 {
      assert s[0].isPrimary;
    }
  }

  /** After a move, the carousel shows the two URLs exchanged and every
      other URL where it was. */
  lemma ShownAfterMove(s: seq<ImageItem>, index: int, dir: ImageReorder.Direction)
    requires 0 <= index < |s|
    requires ImageReorder.MoveImage(s, index, dir).Some?
    ensures var j := ImageReorder.Target(index, dir);
      0 <= j < |s| && SortedImages(ImageReorder.MoveImage(s, index, dir).value) == Urls(s)[index := s[j].imageUrl][j := s[index].imageUrl]
  {
    var t := ImageReorder.MoveImage(s, index, dir).value;
    var j := ImageReorder.Target(index, dir);
    ShownInManagerOrder(t);
    assert ImageReorder.AssetOf(t[index]) == ImageReorder.AssetOf(s[j]);
    assert ImageReorder.AssetOf(t[j]) == ImageReorder.AssetOf(s[index]);
    forall k | 0 <= k < |s| && k != index && k != j
      ensures t[k].imageUrl == s[k].imageUrl
    {
      assert ImageReorder.AssetOf(t[k]) == ImageReorder.AssetOf(s[k]);
    }
  }

  /** After promoting an image, the admin list's thumbnail and the
      carousel's first slide are that image. */
  lemma ShownAfterSetPrimary(s: seq<ImageItem>, imageId: string)
    requires ImageReorder.SetPrimary(s, imageId).Some?
    ensures var p := ImageReorder.FindIndex(s, imageId);
      && 0 <= p < |s|
      && PrimaryImage(ImageReorder.SetPrimary(s, imageId).value) == Some(s[p].imageUrl)
      && SortedImages(ImageReorder.SetPrimary(s, imageId).value)[0] == s[p].imageUrl
  {
    var t := ImageReorder.SetPrimary(s, imageId).value;
    var p := ImageReorder.FindIndex(s, imageId);
    PrimaryOfNormalized(t);
    ShownInManagerOrder(t);
    assert ImageReorder.AssetOf(t[0]) == ImageReorder.AssetOf(s[p]);
  }

  /** The image row a new listing is created with, read back. */
  function StoredImage(id: string, row: PropertyForm.ImageRow): ImageItem {
    ImageReorder.ImageItem(id, row.imageUrl, row.isPrimary, Some(row.displayOrder))
  }

  /** A listing created by the admin form already satisfies the manager's
      order invariant, and its image is both the thumbnail and the only
      slide. */
  lemma NewListingShowsItsImage(d: PropertyForm.FormInput, hasImage: bool, userId: Option<string>, imageUrl: string, id: string)
    requires PropertyForm.Submit(d, hasImage, userId, imageUrl).Written?
    ensures var s := [StoredImage(id, PropertyForm.Submit(d, hasImage, userId, imageUrl).image)];
      && ImageReorder.Normalized(s)
      && (imageUrl != "" ==> Thumbnail(s) == Some(imageUrl))
      && SortedImages(s) == [imageUrl]
  {
    var s := [StoredImage(id, PropertyForm.Submit(d, hasImage, userId, imageUrl).image)];
    assert s[0].displayOrder == Some(0) && s[0].isPrimary;
    PrimaryOfNormalized(s);
    ShownInManagerOrder(s);
  }
}

=== FILE: property_filters.dfy ===
/** The catalog's filter panel state: a record of the chosen location,
    type, status, id search text and price range, the handlers that change
    one part of it and report the new record, the "filters active" badge,
    the reset, and the location choices offered in the dropdown. */
module PropertyFilters {
  import Text

  /** `FilterValues`; an empty string means "no constraint". */
  datatype FilterValues = FilterValues(
    location: string,
    priceRange: (real, real),
    propertyType: string,
    status: string,
    searchId: string)

  /** The text fields the panel edits through `handleFilterChange`. */
  datatype TextField = Location | PropertyType | Status | SearchId

  /** What a handler does: the record it stores with `setFilters` and the
      record it passes to `onFiltersChange`. */
  datatype Update = Update(stored: FilterValues, notified: FilterValues)

  function Field(f: FilterValues, k: TextField): string {
    match k
    case Location => f.location
    case PropertyType => f.propertyType
    case Status => f.status
    case SearchId => f.searchId
  }

  /** The state the panel is created with, from the bounds it is given. */
  function InitialFilters(minPrice: real, maxPrice: real): (f: FilterValues)
    ensures !HasActiveFilters(f, minPrice, maxPrice)
  {
    FilterValues("", (minPrice, maxPrice), "", "", "")
  }

  /** `handleFilterChange(key, value)`: a copy of the record with one field replaced. */
  function HandleFilterChange(f: FilterValues, k: TextField, v: string): (r: Update)
    ensures r.notified == r.stored
    ensures Field(r.stored, k) == v
    ensures forall other :: other != k ==> Field(r.stored, other) == Field(f, other)
    ensures r.stored.priceRange == f.priceRange
  {
    var g := match k
      case Location => f.(location := v)
      case PropertyType => f.(propertyType := v)
      case Status => f.(status := v)
      case SearchId => f.(searchId := v);
    Update(g, g)
  }

  /** `handlePriceChange(value)`: the slider reports its two thumbs. */
  function HandlePriceChange(f: FilterValues, value: seq<real>): (r: Update)
    requires |value| >= 2
    ensures r.notified == r.stored
    ensures r.stored.priceRange == (value[0], value[1])
    ensures forall k :: Field(r.stored, k) == Field(f, k)
  {
    var g := f.(priceRange := (value[0], value[1]));
    Update(g, g)
  }

  /** `hasActiveFilters`: some text field is set or the range is not the full one. */
  predicate HasActiveFilters(f: FilterValues, minPrice: real, maxPrice: real)
    ensures HasActiveFilters(f, minPrice, maxPrice) <==> f != FilterValues("", (minPrice, maxPrice), "", "", "")
  {
    || f.location != ""
    || f.propertyType != ""
    || f.status != ""
    || f.searchId != ""
    || f.priceRange.0 != minPrice
    || f.priceRange.1 != maxPrice
  }

  /** `clearFilters`: stores and reports the default record. */
  function ClearFilters(minPrice: real, maxPrice: real): (r: Update)
    ensures r.notified == r.stored
    ensures !HasActiveFilters(r.stored, minPrice, maxPrice)
  {
    var d := FilterValues("", (minPrice, maxPrice), "", "", "");
    Update(d, d)
  }

  /** The badge is off exactly on the cleared record: clearing is the only
      way to a state without active filters. */
  lemma InactiveIffCleared(f: FilterValues, minPrice: real, maxPrice: real)
    ensures !HasActiveFilters(f, minPrice, maxPrice) <==> f == ClearFilters(minPrice, maxPrice).stored
  {
  }

  /** The panel starts out in the cleared state. */
  lemma InitialIsCleared(minPrice: real, maxPrice: real)
    ensures InitialFilters(minPrice, maxPrice) == ClearFilters(minPrice, maxPrice).stored
  {
  }

  /** Setting a text field to a non-empty value turns the badge on. */
  lemma ChangeActivates(f: FilterValues, k: TextField, v: string, minPrice: real, maxPrice: real)
    requires v != ""
    ensures HasActiveFilters(HandleFilterChange(f, k, v).stored, minPrice, maxPrice)
  {
  }

  /** Two changes of the same field: the last one wins. */
  lemma ChangeLastWins(f: FilterValues, k: TextField, v: string, w: string)
    ensures HandleFilterChange(HandleFilterChange(f, k, v).stored, k, w) == HandleFilterChange(f, k, w)
  {
  }

  /** Re-selecting the current value stores the same record. */
  lemma ChangeToSameValue(f: FilterValues, k: TextField)
    ensures HandleFilterChange(f, k, Field(f, k)).stored == f
  {
  }

  /** The state is created once: when the bounds passed in later differ from
      those at creation, the untouched panel already counts as filtered. */
  lemma StaleBoundsLookActive(minPrice: real, maxPrice: real, newMin: real, newMax: real)
    requires (newMin, newMax) != (minPrice, maxPrice)
    ensures HasActiveFilters(InitialFilters(minPrice, maxPrice), newMin, newMax)
  {
  }

  // ---------------------------------------------------------------------------
  // `uniqueLocations = [...new Set(locations)].filter(Boolean).sort()`

  predicate Distinct(s: seq<string>) {
    forall i, j :: 0 <= i < j < |s| ==> s[i] != s[j]
  }

  /** Ascending with no repeats, in the default string order. */
  predicate StrictlySorted(s: seq<string>) {
    forall i, j :: 0 <= i < j < |s| ==> Text.Less(s[i], s[j])
  }

  /** `[...new Set(s)]`: each value once, at its first occurrence. */
  function Dedup(s: seq<string>): (r: seq<string>)
    ensures Distinct(r)
    ensures forall x :: x in r <==> x in s
    decreases |s|
  {
    if |s| == 0 then []
    else
      var d := Dedup(s[..|s| - 1]);
      var x := s[|s| - 1];
      assert s == s[..|s| - 1] + [x];
      if x in d then d else d + [x]
  }

  /** `.filter(Boolean)` on strings: drops the empty string. */
  function NonEmpty(s: seq<string>): (r: seq<string>)
    ensures forall x :: x in r <==> x in s && x != ""
    ensures Distinct(s) ==> Distinct(r)
    decreases |s|
  {
    if |s| == 0 then []
    else
      var rest := NonEmpty(s[1..]);
      assert s == [s[0]] + s[1..];
      DistinctTail(s);
      if s[0] == "" then rest else [s[0]] + rest
  }

  lemma DistinctTail(s: seq<string>)
    requires |s| > 0
    ensures Distinct(s) ==> Distinct(s[1..]) && s[0] !in s[1..]
  {
  }

  lemma SortedCons(x: string, t: seq<string>)
    requires StrictlySorted(t)
    requires |t| > 0 ==> Text.Less(x, t[0])
    ensures StrictlySorted([x] + t)
  {
    var r := [x] + t;
    forall i, j | 0 <= i < j < |r|
      ensures Text.Less(r[i], r[j])
    {
      if i == 0 && j > 1 {
        Text.LessTransitive(x, t[0], t[j - 1]);
      }
    }
  }

  /** Places `x` among the strictly sorted `t`, which does not hold it. */
  function InsertSorted(x: string, t: seq<string>): (r: seq<string>)
    requires StrictlySorted(t) && x !in t
    ensures |r| == |t| + 1
    ensures r[0] == x || (|t| > 0 && r[0] == t[0])
    ensures StrictlySorted(r)
    ensures forall y :: y in r <==> y == x || y in t
    decreases |t|
  {
    if |t| == 0 || Text.Less(x, t[0]) then
      SortedCons(x, t);
      [x] + t
    else
      Text.LessTotal(x, t[0]);
      var u := InsertSorted(x, t[1..]);
      assert t == [t[0]] + t[1..];
      SortedCons(t[0], u);
      [t[0]] + u
  }

  /** `.sort()` of a list without repeats. */
  function SortStrings(s: seq<string>): (r: seq<string>)
    requires Distinct(s)
    ensures StrictlySorted(r)
    ensures forall x :: x in r <==> x in s
    decreases |s|
  {
    if |s| == 0 then []
    else
      assert s == [s[0]] + s[1..];
      InsertSorted(s[0], SortStrings(s[1..]))
  }

  /** The dropdown's location choices. */
  function UniqueLocations(locations: seq<string>): (r: seq<string>)
    ensures StrictlySorted(r) && Distinct(r)
    ensures "" !in r
    ensures forall x :: x in r <==> x in locations && x != ""
  {
    var r := SortStrings(NonEmpty(Dedup(locations)));
    StrictlySortedDistinct(r);
    r
  }

  lemma StrictlySortedDistinct(s: seq<string>)
    requires StrictlySorted(s)
    ensures Distinct(s)
  {
    forall i, j | 0 <= i < j < |s|
      ensures s[i] != s[j]
    {
      Text.LessIrreflexive(s[i]);
    }
  }

  lemma HeadIn(s: seq<string>)
    requires |s| > 0
    ensures s[0] in s
  {
  }

  /** Only one strictly sorted list holds a given set of strings. */
  lemma {:induction false} StrictlySortedUnique(a: seq<string>, b: seq<string>)
    requires StrictlySorted(a) && StrictlySorted(b)
    requires forall x :: x in a <==> x in b
    ensures a == b
    decreases |a|
  {
    if |a| == 0 && |b| == 0 {
    } else if |a| == 0 {
      HeadIn(b);
      assert false;
    } else if |b| == 0 {
      HeadIn(a);
      assert false;
    } else {
      assert a[0] in b && b[0] in a;
      var i :| 0 <= i < |b| && b[i] == a[0];
      var j :| 0 <= j < |a| && a[j] == b[0];
      if a[0] != b[0] {
        assert Text.Less(b[0], a[0]) by {
          assert i > 0;
        }
        assert Text.Less(a[0], b[0]) by {
          assert j > 0;
        }
        Text.LessTransitive(a[0], b[0], a[0]);
        Text.LessIrreflexive(a[0]);
        assert false;
      }
      StrictlySortedDistinct(a);
      StrictlySortedDistinct(b);
      assert a == [a[0]] + a[1..] && b == [b[0]] + b[1..];
      forall x
        ensures x in a[1..] <==> x in b[1..]
      {
        if x in a[1..] {
          var k :| 0 <= k < |a[1..]| && a[1..][k] == x;
          assert a[k + 1] == x && x != a[0];
          assert x in a && x in b;
          var m :| 0 <= m < |b| && b[m] == x;
          assert m > 0 && b[1..][m - 1] == x;
        }
        if x in b[1..] {
          var k :| 0 <= k < |b[1..]| && b[1..][k] == x;
          assert b[k + 1] == x && x != b[0];
          assert x in b && x in a;
          var m :| 0 <= m < |a| && a[m] == x;
          assert m > 0 && a[1..][m - 1] == x;
        }
      }
      StrictlySortedUnique(a[1..], b[1..]);
      assert a == [a[0]] + a[1..] && b == [b[0]] + b[1..];
    }
  }

  /** The choices depend only on which locations occur: not on their order
      in the listing data, nor on how often each occurs. */
  lemma UniqueLocationsDependOnSetOnly(a: seq<string>, b: seq<string>)
    requires forall x :: x in a <==> x in b
    ensures UniqueLocations(a) == UniqueLocations(b)
  {
    StrictlySortedUnique(UniqueLocations(a), UniqueLocations(b));
  }
}

=== FILE: property_form.dfy ===
/** The admin panel's "new listing" form: the schema the form data must
    pass, and what a submit of valid data writes: one listing row and its
    single cover image. */
module PropertyForm {
  import opened Wrappers

  /** The listing categories the schema accepts. */
  datatype PropertyType = Apartamento | Casa | Cobertura | Terreno | Comercial

  function TypeName(t: PropertyType): string {
    match t
    case Apartamento => "apartamento"
    case Casa => "casa"
    case Cobertura => "cobertura"
    case Terreno => "terreno"
    case Comercial => "comercial"
  }

  /** `z.enum([...])`: the category a string names, if any. */
  function ParseType(s: string): (r: Option<PropertyType>)
    ensures r.Some? ==> TypeName(r.value) == s
    ensures r.None? ==> forall t :: TypeName(t) != s
  {
    if s == "apartamento" then Some(Apartamento)
    else if s == "casa" then Some(Casa)
    else if s == "cobertura" then Some(Cobertura)
    else if s == "terreno" then Some(Terreno)
    else if s == "comercial" then Some(Comercial)
    else None
  }

  /** The form values handed to the schema. Numeric inputs are read with
      `valueAsNumber`, so an empty one arrives as NaN, written `None` here. */
  datatype FormInput = FormInput(
    title: string,
    description: Option<string>,
    propertyType: string,
    location: string,
    price: Option<real>,
    bedrooms: Option<real>,
    bathrooms: Option<real>,
    parking: Option<real>,
    area: Option<real>)

  /** The schema's fields, in declaration order. */
  datatype Field = Title | Type | Location | Price | Bedrooms | Bathrooms | Parking | Area

  /** Data that passed the schema. */
  datatype PropertyData = PropertyData(
    title: string,
    description: Option<string>,
    propertyType: PropertyType,
    location: string,
    price: real,
    bedrooms: int,
    bathrooms: int,
    parking: int,
    area: real)

  /** `z.number().positive()` */
  predicate IsPositive(x: Option<real>) {
    x.Some? && x.value > 0.0
  }

  /** `z.number().int().nonnegative()` */
  predicate IsCount(x: Option<real>) {
    x.Some? && x.value.Floor as real == x.value && x.value >= 0.0
  }

  function Check(ok: bool, f: Field): (r: seq<Field>)
    ensures forall g :: g in r <==> g == f && !ok
  {
    if ok then [] else [f]
  }

  /** The rejected text fields. */
  function TextIssues(d: FormInput): (r: seq<Field>)
    ensures Title in r <==> |d.title| < 3
    ensures Type in r <==> ParseType(d.propertyType).None?
    ensures Location in r <==> |d.location| < 3
    ensures forall f :: f in r ==> f == Title || f == Type || f == Location
  {
    Check(|d.title| >= 3, Title)
    + Check(ParseType(d.propertyType).Some?, Type)
    + Check(|d.location| >= 3, Location)
  }

  /** The rejected numeric fields. */
  function NumberIssues(d: FormInput): (r: seq<Field>)
    ensures Price in r <==> !IsPositive(d.price)
    ensures Bedrooms in r <==> !IsCount(d.bedrooms)
    ensures Bathrooms in r <==> !IsCount(d.bathrooms)
    ensures Parking in r <==> !IsCount(d.parking)
    ensures Area in r <==> !IsPositive(d.area)
    ensures forall f :: f in r ==> f != Title && f != Type && f != Location
  {
    Check(IsPositive(d.price), Price)
    + Check(IsCount(d.bedrooms), Bedrooms)
    + Check(IsCount(d.bathrooms), Bathrooms)
    + Check(IsCount(d.parking), Parking)
    + Check(IsPositive(d.area), Area)
  }

  /** The fields the schema rejects, in declaration order. */
  function Issues(d: FormInput): (r: seq<Field>)
    ensures Title in r <==> |d.title| < 3
    ensures Type in r <==> ParseType(d.propertyType).None?
    ensures Location in r <==> |d.location| < 3
    ensures Price in r <==> !IsPositive(d.price)
    ensures Bedrooms in r <==> !IsCount(d.bedrooms)
    ensures Bathrooms in r <==> !IsCount(d.bathrooms)
    ensures Parking in r <==> !IsCount(d.parking)
    ensures Area in r <==> !IsPositive(d.area)
  {
    TextIssues(d) + NumberIssues(d)
  }

  /** The form values a piece of valid data comes from. */
  function Embed(p: PropertyData): FormInput {
    FormInput(p.title, p.description, TypeName(p.propertyType), p.location, Some(p.price),
              Some(p.bedrooms as real), Some(p.bathrooms as real), Some(p.parking as real), Some(p.area))
  }

  /** What the schema guarantees of data it lets through. */
  predicate WellFormed(p: PropertyData) {
    && |p.title| >= 3 && |p.location| >= 3
    && p.price > 0.0 && p.area > 0.0
    && p.bedrooms >= 0 && p.bathrooms >= 0 && p.parking >= 0
  }

  /** `propertySchema.safeParse`: the data when every field passes,
      otherwise every failing field. */
  function Validate(d: FormInput): (r: Result<PropertyData, seq<Field>>)
    ensures r.Failure? <==> Issues(d) != []
    ensures r.Failure? ==> r.error == Issues(d)
    ensures r.Success? ==> WellFormed(r.value) && Embed(r.value) == d
  {
    var issues := Issues(d);
    if issues != [] then Failure(issues)
    else
      var p := PropertyData(d.title, d.description, ParseType(d.propertyType).value, d.location,
                            d.price.value, d.bedrooms.value.Floor, d.bathrooms.value.Floor,
                            d.parking.value.Floor, d.area.value);
      assert Embed(p) == d;
      Success(p)
  }

  /** Well-formed data is accepted as it is: `Validate` and `Embed` are
      inverse on what the schema lets through. */
  lemma ValidateEmbed(p: PropertyData)
    requires WellFormed(p)
    ensures Validate(Embed(p)) == Success(p)
  {
    assert (p.bedrooms as real).Floor == p.bedrooms;
    assert (p.bathrooms as real).Floor == p.bathrooms;
    assert (p.parking as real).Floor == p.parking;
    assert Issues(Embed(p)) == [];
  }

  // ---------------------------------------------------------------------------
  // Submitting valid data

  datatype PropertyRow = PropertyRow(
    title: string,
    description: Option<string>,
    propertyType: string,
    location: string,
    price: real,
    bedrooms: int,
    bathrooms: int,
    parking: int,
    area: real,
    userId: string)

  datatype ImageRow = ImageRow(imageUrl: string, isPrimary: bool, displayOrder: int)

  /** What one submit of the form does. `Invalid` and `MissingImage` stop
      before anything is written; `NotAuthenticated` is the error thrown when
      the session has no user; `Written` carries the two rows inserted. */
  datatype SubmitOutcome =
    | Invalid(issues: seq<Field>)
    | MissingImage
    | NotAuthenticated
    | Written(property: PropertyRow, image: ImageRow)

  /** `description || null`: an empty description is stored as null. */
  function StoredDescription(d: Option<string>): (r: Option<string>)
    ensures r.None? <==> d == None || d == Some("")
    ensures r.Some? ==> r == d
  {
    if d == Some("") then None else d
  }

  /** The form's submit with the chosen file (`hasImage`), the signed-in
      user and the public URL the upload produced. */
  function Submit(d: FormInput, hasImage: bool, userId: Option<string>, imageUrl: string): (r: SubmitOutcome)
    ensures Issues(d) != [] ==> r == Invalid(Issues(d))
    ensures Issues(d) == [] && !hasImage ==> r == MissingImage
    ensures Issues(d) == [] && hasImage && userId.None? ==> r == NotAuthenticated
    ensures r.Written? <==> Issues(d) == [] && hasImage && userId.Some?
    ensures r.Written? ==>
      && r.image == ImageRow(imageUrl, true, 0)
      && r.property.userId == userId.value
      && (r.property.description.None? <==> d.description == None || d.description == Some(""))
      && (r.property.description.Some? ==> r.property.description == d.description)
      && r.property.title == d.title && r.property.location == d.location
      && r.property.propertyType == d.propertyType
      && Some(r.property.price) == d.price && Some(r.property.area) == d.area
      && Some(r.property.bedrooms as real) == d.bedrooms
      && Some(r.property.bathrooms as real) == d.bathrooms
      && Some(r.property.parking as real) == d.parking
  {
    match Validate(d)
    case Failure(issues) => Invalid(issues)
    case Success(p) =>
      if !hasImage then MissingImage
      else if userId.None? then NotAuthenticated
      else
        Written(
          PropertyRow(p.title, StoredDescription(p.description), TypeName(p.propertyType), p.location,
                      p.price, p.bedrooms, p.bathrooms, p.parking, p.area, userId.value),
          ImageRow(imageUrl, true, 0))
  }
}

=== FILE: stable_sort.dfy ===
/** The ordering `[...xs].sort((a, b) => key(a) - key(b))` that the admin
    image manager, the detail page and the catalog apply to image lists.
    `Array.prototype.sort` is stable, so the result is the unique sequence
    that is ordered by key and keeps, for every key, the input order of the
    elements carrying it. Sorting works on a copy: the input is a value and
    is never changed. */
module StableSort {

  /** Keys never decrease from left to right. */
  predicate SortedBy<T>(s: seq<T>, key: T -> int) {
    forall i, j :: 0 <= i < j < |s| ==> key(s[i]) <= key(s[j])
  }

  /** The subsequence of `s` whose elements carry key `k`, in input order. */
  function WithKey<T>(s: seq<T>, key: T -> int, k: int): (r: seq<T>)
    ensures |r| <= |s|
    ensures forall i :: 0 <= i < |r| ==> key(r[i]) == k
    decreases |s|
  {
    if |s| == 0 then []
    else if key(s[0]) == k then [s[0]] + WithKey(s[1..], key, k)
    else WithKey(s[1..], key, k)
  }

  /** `t` is what a stable sort of `s` by `key` must return: the same
      elements, ordered by key, and equal keys in their input order. */
  ghost predicate IsStableSortOf<T>(t: seq<T>, s: seq<T>, key: T -> int) {
    && SortedBy(t, key)
    && multiset(t) == multiset(s)
    && forall k :: WithKey(t, key, k) == WithKey(s, key, k)
  }

  /** `WithKey` of a sequence with a known first element. */
  lemma WithKeyCons<T>(x: T, u: seq<T>, key: T -> int, k: int)
    ensures WithKey([x] + u, key, k) == (if key(x) == k then [x] else []) + WithKey(u, key, k)
  {
    assert ([x] + u)[1..] == u;
  }

  lemma SortedCons<T>(x: T, u: seq<T>, key: T -> int)
    requires SortedBy(u, key)
    requires |u| > 0 ==> key(x) <= key(u[0])
    ensures SortedBy([x] + u, key)
  {
    var r := [x] + u;
    forall i, j | 0 <= i < j < |r|
      ensures key(r[i]) <= key(r[j])
    {
      if i == 0 {
        assert r[j] == u[j - 1];
      } else {
        assert r[i] == u[i - 1] && r[j] == u[j - 1];
      }
    }
  }

  /** Places `x` in front of every element of the sorted `t` whose key is at
      least its own; `x` is taken to precede all of `t` in the input. */
  function Insert<T>(x: T, t: seq<T>, key: T -> int): (r: seq<T>)
    requires SortedBy(t, key)
    ensures |r| == |t| + 1
    ensures r[0] == x || (|t| > 0 && r[0] == t[0])
    ensures SortedBy(r, key)
    ensures multiset(r) == multiset(t) + multiset{x}
    decreases |t|
  {
    if |t| == 0 || key(x) <= key(t[0]) then
      SortedCons(x, t, key);
      [x] + t
    else
      var u := Insert(x, t[1..], key);
      assert t == [t[0]] + t[1..];
      SortedCons(t[0], u, key);
      [t[0]] + u
  }

  /** Inserting `x` puts it in front of the elements of `t` that share its key. */
  lemma {:induction false} InsertWithKey<T>(x: T, t: seq<T>, key: T -> int, k: int)
    requires SortedBy(t, key)
    ensures WithKey(Insert(x, t, key), key, k) == (if key(x) == k then [x] else []) + WithKey(t, key, k)
    decreases |t|
  {
    if |t| == 0 || key(x) <= key(t[0]) {
      WithKeyCons(x, t, key, k);
    } else {
      var u := Insert(x, t[1..], key);
      WithKeyCons(t[0], u, key, k);
      InsertWithKey(x, t[1..], key, k);
      WithKeyCons(t[0], t[1..], key, k);
      assert t == [t[0]] + t[1..];
    }
  }

  /** Insertion sort, front element inserted into the sorted rest. */
  function Sort<T>(s: seq<T>, key: T -> int): (r: seq<T>)
    ensures IsStableSortOf(r, s, key)
    decreases |s|
  {
    if |s| == 0 then []
    else
      var rest := Sort(s[1..], key);
      assert s == [s[0]] + s[1..];
      SortWithKey(s[0], rest, s[1..], key);
      Insert(s[0], rest, key)
  }

  lemma SortWithKey<T>(x: T, rest: seq<T>, tail: seq<T>, key: T -> int)
    requires SortedBy(rest, key)
    requires forall k :: WithKey(rest, key, k) == WithKey(tail, key, k)
    ensures forall k :: WithKey(Insert(x, rest, key), key, k) == WithKey([x] + tail, key, k)
  {
    forall k
      ensures WithKey(Insert(x, rest, key), key, k) == WithKey([x] + tail, key, k)
    {
      InsertWithKey(x, rest, key, k);
      WithKeyCons(x, tail, key, k);
    }
  }

  /** Every key present in a key-ordered sequence is at least its first key. */
  lemma {:induction false} SortedHeadBelow<T>(s: seq<T>, key: T -> int, k: int)
    requires SortedBy(s, key) && WithKey(s, key, k) != []
    ensures key(s[0]) <= k
    decreases |s|
  {
    if key(s[0]) != k {
      assert WithKey(s[1..], key, k) != [];
      SortedHeadBelow(s[1..], key, k);
      assert s[1..][0] == s[1];
    }
  }

  lemma NonEmptyClass<T>(s: seq<T>, key: T -> int)
    requires |s| > 0
    ensures WithKey(s, key, key(s[0])) != []
  {
  }

  /** Two tails agree on every key when the whole sequences do and their heads match. */
  lemma TailsAgree<T>(a: seq<T>, b: seq<T>, key: T -> int)
    requires |a| > 0 && |b| > 0 && a[0] == b[0]
    requires forall k :: WithKey(a, key, k) == WithKey(b, key, k)
    ensures forall k :: WithKey(a[1..], key, k) == WithKey(b[1..], key, k)
  {
    forall k
      ensures WithKey(a[1..], key, k) == WithKey(b[1..], key, k)
    {
      assert WithKey(a, key, k) == WithKey(b, key, k);
      WithKeyCons(a[0], a[1..], key, k);
      WithKeyCons(b[0], b[1..], key, k);
      assert a == [a[0]] + a[1..] && b == [b[0]] + b[1..];
      if key(a[0]) == k {
        assert WithKey(a[1..], key, k) == WithKey(a, key, k)[1..];
      }
    }
  }

  /** There is only one stable sort: two key-ordered sequences that agree on
      the subsequence of every key are equal. */
  lemma {:induction false} StableSortUnique<T>(a: seq<T>, b: seq<T>, key: T -> int)
    requires SortedBy(a, key) && SortedBy(b, key)
    requires forall k :: WithKey(a, key, k) == WithKey(b, key, k)
    ensures a == b
    decreases |a|
  {
    if |a| == 0 && |b| == 0 {
    } else if |a| == 0 {
      NonEmptyClass(b, key);
      assert false;
    } else if |b| == 0 {
      NonEmptyClass(a, key);
      assert false;
    } else {
      var ka, kb := key(a[0]), key(b[0]);
      NonEmptyClass(a, key);
      NonEmptyClass(b, key);
      SortedHeadBelow(b, key, ka);
      SortedHeadBelow(a, key, kb);
      assert WithKey(a, key, ka)[0] == a[0];
      assert WithKey(b, key, ka)[0] == b[0];
      TailsAgree(a, b, key);
      assert SortedBy(a[1..], key) && SortedBy(b[1..], key);
      StableSortUnique(a[1..], b[1..], key);
      assert a == [a[0]] + a[1..] && b == [b[0]] + b[1..];
    }
  }

  /** `Sort` is the stable sort: any sequence meeting the stable-sort
      description of `s` is exactly `Sort(s, key)`. */
  lemma SortIsTheStableSort<T>(t: seq<T>, s: seq<T>, key: T -> int)
    requires IsStableSortOf(t, s, key)
    ensures t == Sort(s, key)
  {
    var r := Sort(s, key);
    assert forall k :: WithKey(t, key, k) == WithKey(r, key, k);
    StableSortUnique(t, r, key);
  }

  /** A list already ordered by key comes back unchanged. */
  lemma SortSortedIsIdentity<T>(s: seq<T>, key: T -> int)
    requires SortedBy(s, key)
    ensures Sort(s, key) == s
  {
    SortIsTheStableSort(s, s, key);
  }

  /** The projection of a sequence through `f`, as `.map(f)`. */
  function Project<T, U>(s: seq<T>, f: T -> U): (r: seq<U>)
    ensures |r| == |s|
    ensures forall i :: 0 <= i < |s| ==> r[i] == f(s[i])
  {
    seq(|s|, i requires 0 <= i < |s| => f(s[i]))
  }

  lemma {:induction false} ProjectInsert<T, U>(x: T, t: seq<T>, key: T -> int, f: T -> U)
    requires SortedBy(t, key)
    ensures multiset(Project(Insert(x, t, key), f)) == multiset(Project(t, f)) + multiset{f(x)}
    decreases |t|
  {
    var r := Insert(x, t, key);
    if |t| == 0 || key(x) <= key(t[0]) {
      assert Project(r, f) == [f(x)] + Project(t, f);
    } else {
      ProjectInsert(x, t[1..], key, f);
      assert Project(r, f) == [f(t[0])] + Project(Insert(x, t[1..], key), f);
      assert Project(t, f) == [f(t[0])] + Project(t[1..], f);
    }
  }

  /** Sorting and then projecting keeps the multiset of projected values:
      nothing is lost or duplicated. */
  lemma {:induction false} ProjectSortPermutes<T, U>(s: seq<T>, key: T -> int, f: T -> U)
    ensures multiset(Project(Sort(s, key), f)) == multiset(Project(s, f))
    decreases |s|
  {
    if |s| > 0 {
      var rest := Sort(s[1..], key);
      SortUnfold(s, key);
      ProjectSortPermutes(s[1..], key, f);
      ProjectInsert(s[0], rest, key, f);
      ProjectCons(s, f);
    }
  }

  lemma SortUnfold<T>(s: seq<T>, key: T -> int)
    requires |s| > 0
    ensures SortedBy(Sort(s[1..], key), key)
    ensures Sort(s, key) == Insert(s[0], Sort(s[1..], key), key)
  {
  }

  lemma ProjectCons<T, U>(s: seq<T>, f: T -> U)
    requires |s| > 0
    ensures multiset(Project(s, f)) == multiset{f(s[0])} + multiset(Project(s[1..], f))
  {
    assert Project(s, f) == [f(s[0])] + Project(s[1..], f);
  }
}

=== FILE: text.dfy ===
/** String helpers the components rely on from the JavaScript runtime:
    decimal rendering of integers (`String(n)`, `toFixed(0)`), the default
    string order of `Array.prototype.sort`, and `String.prototype.trim`.
    Strings are sequences of characters compared by character code. */
module Text {
  import opened Wrappers

  predicate IsDigit(c: char) {
    '0' <= c <= '9'
  }

  predicate AllDigits(s: string) {
    forall i :: 0 <= i < |s| ==> IsDigit(s[i])
  }

  function DigitValue(c: char): (d: nat)
    requires IsDigit(c)
    ensures d < 10
  {
    (c as int) - ('0' as int)
  }

  function DigitChar(d: nat): (c: char)
    requires d < 10
    ensures IsDigit(c) && DigitValue(c) == d
  {
    (('0' as int) + d) as char
  }

  /** Decimal rendering of a natural number: no sign, no leading zero. */
  function NatToString(n: nat): (s: string)
    ensures |s| > 0 && AllDigits(s)
    ensures s[0] == '0' <==> n == 0
    decreases n
  {
    if n < 10 then [DigitChar(n)] else NatToString(n / 10) + [DigitChar(n % 10)]
  }

  /** Decimal rendering of an integer; a negative number gets a leading '-'. */
  function IntToString(i: int): (s: string)
    ensures |s| > 0
    ensures s[0] == '-' <==> i < 0
    ensures AllDigits(s[1..])
    ensures IsDigit(s[|s| - 1])
    ensures s[0] == '0' ==> i == 0
    ensures i < 0 ==> s[1] != '0'
  {
    if i < 0 then "-" + NatToString(-i) else NatToString(i)
  }

  /** Value of a string of decimal digits (the empty string reads as 0). */
  function DigitsValue(s: string): nat
    requires AllDigits(s)
    decreases |s|
  {
    if |s| == 0 then 0 else DigitsValue(s[..|s| - 1]) * 10 + DigitValue(s[|s| - 1])
  }

  function ParseNat(s: string): Option<nat> {
    if |s| > 0 && AllDigits(s) then Some(DigitsValue(s)) else None
  }

  function ParseInt(s: string): Option<int> {
    if |s| > 0 && s[0] == '-' then
      match ParseNat(s[1..])
      case None => None
      case Some(n) => Some(0 - n as int)
    else
      ParseNat(s)
  }

  lemma {:induction false} DigitsValueOfNatToString(n: nat)
    ensures DigitsValue(NatToString(n)) == n
    decreases n
  {
    if n >= 10 {
      var s := NatToString(n / 10);
      DigitsValueOfNatToString(n / 10);
      var t := s + [DigitChar(n % 10)];
      assert t[..|t| - 1] == s;
    }
  }

  /** Reading back a rendered natural number gives the number. */
  lemma NatToStringRoundTrip(n: nat)
    ensures ParseNat(NatToString(n)) == Some(n)
  {
    DigitsValueOfNatToString(n);
  }

  /** Reading back a rendered integer gives the integer, so the rendering is injective. */
  lemma IntToStringRoundTrip(i: int)
    ensures ParseInt(IntToString(i)) == Some(i)
  {
    if i < 0 {
      var t := NatToString(-i);
      assert ("-" + t)[1..] == t;
      NatToStringRoundTrip(-i);
    } else {
      NatToStringRoundTrip(i);
    }
  }

  // ---------------------------------------------------------------------------
  // String order used by the default `sort()`

  /** `a` sorts strictly before `b`: at the first differing position its
      character is smaller, or it is a proper prefix of `b`. */
  predicate Less(a: string, b: string)
    ensures Less(a, b) ==> a != b
    decreases |a|
  {
    if |a| == 0 then |b| > 0
    else if |b| == 0 then false
    else a[0] < b[0] || (a[0] == b[0] && Less(a[1..], b[1..]))
  }

  lemma {:induction false} LessIrreflexive(a: string)
    ensures !Less(a, a)
    decreases |a|
  {
    if |a| > 0 {
      LessIrreflexive(a[1..]);
    }
  }

  lemma {:induction false} LessAsymmetric(a: string, b: string)
    requires Less(a, b)
    ensures !Less(b, a)
    decreases |a|
  {
    if |a| > 0 && |b| > 0 && a[0] == b[0] {
      LessAsymmetric(a[1..], b[1..]);
    }
  }

  lemma {:induction false} LessTransitive(a: string, b: string, c: string)
    requires Less(a, b) && Less(b, c)
    ensures Less(a, c)
    decreases |a|
  {
    if |a| > 0 && |b| > 0 && |c| > 0 && a[0] == b[0] && b[0] == c[0] {
      LessTransitive(a[1..], b[1..], c[1..]);
    }
  }

  lemma {:induction false} LessTotal(a: string, b: string)
    ensures a == b || Less(a, b) || Less(b, a)
    decreases |a|
  {
    if |a| > 0 && |b| > 0 && a[0] == b[0] {
      LessTotal(a[1..], b[1..]);
      if a[1..] == b[1..] {
        assert a == [a[0]] + a[1..] && b == [b[0]] + b[1..];
      }
    }
  }

  // ---------------------------------------------------------------------------
  // `String.prototype.trim`

  /** The characters ECMAScript's `trim` removes: the WhiteSpace and
      LineTerminator productions (tab, vertical tab, form feed, the
      byte-order mark, every space separator, line feed, carriage return,
      line and paragraph separator). */
  predicate IsWhitespace(c: char) {
    || c == '\t' || c == '\n' || c == '\U{000B}' || c == '\U{000C}' || c == '\r'
    || c == ' ' || c == '\U{00A0}' || c == '\U{1680}'
    || ('\U{2000}' <= c <= '\U{200A}')
    || c == '\U{2028}' || c == '\U{2029}' || c == '\U{202F}' || c == '\U{205F}'
    || c == '\U{3000}' || c == '\U{FEFF}'
  }

  predicate IsBlank(s: string) {
    forall i :: 0 <= i < |s| ==> IsWhitespace(s[i])
  }

  /** Number of whitespace characters at the start of `s`. */
  function LeadingSpace(s: string): (n: nat)
    ensures n <= |s| && IsBlank(s[..n])
    ensures n < |s| ==> !IsWhitespace(s[n])
    decreases |s|
  {
    if |s| == 0 || !IsWhitespace(s[0]) then 0 else 1 + LeadingSpace(s[1..])
  }

  /** Number of whitespace characters at the end of `s`. */
  function TrailingSpace(s: string): (n: nat)
    ensures n <= |s| && IsBlank(s[|s| - n..])
    ensures n < |s| ==> !IsWhitespace(s[|s| - n - 1])
    decreases |s|
  {
    if |s| == 0 || !IsWhitespace(s[|s| - 1]) then 0 else 1 + TrailingSpace(s[..|s| - 1])
  }

  /** `s.trim()`: the middle part of `s` left after dropping whitespace at both ends. */
  function Trim(s: string): (r: string)
    ensures r == "" <==> IsBlank(s)
    ensures r != "" ==> !IsWhitespace(r[0]) && !IsWhitespace(r[|r| - 1])
    ensures exists i, j :: 0 <= i <= j <= |s| && r == s[i..j] && IsBlank(s[..i]) && IsBlank(s[j..])
  {
    var lead := LeadingSpace(s);
    var trail := TrailingSpace(s[lead..]);
    TrimBounds(s, lead, trail);
    TrimBlank(s, lead, trail);
    if lead + trail < |s| then
      TrimEnds(s, lead, trail);
      s[lead..|s| - trail]
    else
      ""
  }

  /** The two whitespace runs `Trim` cuts off do not overlap and are blank. */
  lemma TrimBounds(s: string, lead: nat, trail: nat)
    requires lead == LeadingSpace(s) && trail == TrailingSpace(s[lead..])
    ensures lead + trail <= |s|
    ensures IsBlank(s[..lead]) && IsBlank(s[|s| - trail..])
  {
    assert s[lead..][|s| - lead - trail..] == s[|s| - trail..];
  }

  /** Nothing is left exactly when the whole string is whitespace. */
  lemma TrimBlank(s: string, lead: nat, trail: nat)
    requires lead == LeadingSpace(s) && trail == TrailingSpace(s[lead..])
    requires lead + trail <= |s|
    ensures lead + trail == |s| <==> IsBlank(s)
  {
    LeadingSpaceAll(s);
    if lead < |s| {
      TrailingSpaceStops(s[lead..]);
    }
  }

  lemma LeadingSpaceAll(s: string)
    ensures LeadingSpace(s) == |s| <==> IsBlank(s)
  {
    if LeadingSpace(s) == |s| {
      assert s[..|s|] == s;
    }
  }

  lemma TrailingSpaceStops(t: string)
    requires |t| > 0 && !IsWhitespace(t[0])
    ensures TrailingSpace(t) < |t|
  {
  }

  /** What is left neither starts nor ends with whitespace. */
  lemma TrimEnds(s: string, lead: nat, trail: nat)
    requires lead == LeadingSpace(s) && trail == TrailingSpace(s[lead..])
    requires lead + trail < |s|
    ensures var r := s[lead..|s| - trail]; !IsWhitespace(r[0]) && !IsWhitespace(r[|r| - 1])
  {
    assert s[lead..][|s| - lead - trail - 1] == s[|s| - trail - 1];
  }

  /** Trimming twice is trimming once. */
  lemma TrimIdempotent(s: string)
    ensures Trim(Trim(s)) == Trim(s)
  {
    var r := Trim(s);
    if r != "" {
      assert LeadingSpace(r) == 0;
      assert TrailingSpace(r) == 0;
    }
  }
}

=== FILE: wrappers.dfy ===
/** Wrappers shared by the whole model: `Option` stands for a JavaScript
    value that may be `null`/`undefined`, `Result` for a step that either
    produces a value or stops with an error. */
module Wrappers {

  datatype Option<+T> = None | Some(value: T) {
    /** `x || default` for a value that is either missing or present. */
    function GetOr(default: T): T {
      match this
      case Some(v) => v
      case None => default
    }
  }

  datatype Result<+R, +E> = Success(value: R) | Failure(error: E)
}
